=== FILE: README.md ===
# brandchatsbot: grouping and run loop, modelled in Dafny

`main.py` runs as a periodic job. It pulls recent support-chat messages from a
Looker query and groups them by brand. For every brand that has something new
since its stored watermark, it asks a chat model to categorise the
conversation, appends a ten-cell row to a Google Sheet, and moves the brand's
watermark (`last_processed[brand]`) to the conversation's latest timestamp.

This project models the two parts of that job that carry logic. Everything
else is a service the model takes as a parameter.

- **`group_messages_by_brand`** (`grouper.dfy`, with `entries.dfy` for the
  sort). Records are field maps whose JSON nulls are `None`. A record is kept
  when its timestamp parses and is not earlier than the cutoff. Each kept
  record is appended, as a `(timestamp, content)` pair, to its brand's list in
  an insertion-ordered dict. Every list is then stable-sorted by timestamp.
  The two loops are methods (`BucketByBrand`, `SortBuckets`), and each is
  proved against the pure definition `Grouping`. The properties are proved
  about `Grouping`:
  - it is a partition of the kept records;
  - dropped records are invisible;
  - keys come in first-appearance order;
  - lists are non-empty, sorted and stable.
- **The `__main__` loop** (`driver.dfy`). `ProcessConversations` walks the
  brands in key order, and `ProcessBrand` is one turn of the loop. A turn
  builds the transcript and the latest timestamp, then applies the skip test
  `last and latest <= last` as Python string comparison. If the brand is not
  skipped, the turn calls the classifier, decodes its reply, builds the row,
  appends it and updates the watermark. The methods are proved against the
  function `Run`. The run-level lemmas are about `Run`:
  - which watermarks move and to what;
  - who gets a classifier call;
  - rows and watermarks agree;
  - a second run is idempotent.
- **Timestamps** (`timestamps.dfy`, `strings.dfy`) are calendar tuples.
  `Format` is the zero-padded `%Y-%m-%d %H:%M:%S` rendering. The grouping
  compares datetimes, but the skip test compares formatted strings.
  `FormatOrder` shows that, for four-digit years, Python's string order on
  formatted values is exactly chronological order, and that formatting is
  injective.

The remote services are the parameters of `Driver.Services`:
- the classifier's stripped reply for a brand's transcript, or `None` when the call raised;
- `json.loads` of a reply, or `None` on a decode error;
- whether the sheet append went through.

The cutoff (`datetime.now() - 24h`) and `strptime` are parameters of the
grouping.

Two behaviours of the code are easy to miss:
- A message stamped exactly at the cutoff is **kept**, because the code drops
  only `timestamp < cutoff` (main.py:143). See `Grouper.Admit`.
- A failed sheet append **still advances** the watermark, because
  `update_google_sheet` swallows its own errors (main.py:190-191, 257-261). A
  rerun then skips that brand, so its row is never written. This is what
  `Driver.RerunSkipsSettledBrands` states for a `Classified(row, false)`
  outcome.

## Model

| member | source | states |
|---|---|---|
| Strings.Less | main.py:228 | computes Python's `str` `a < b`: code point by code point, with a proper prefix first (Dafny's own `<` on sequences means proper prefix) |
| Strings.AtMost | main.py:228 | computes Python's `str` `a <= b`: equal, or `Less` |
| Timestamps.Before | main.py:143 | computes `datetime` `a < b`: field by field, year first |
| Timestamps.AtOrBefore | main.py:153 | computes `datetime` `a <= b`: not `Before(b, a)`, the order the stable sort by timestamp keeps |
| Timestamps.Format | main.py:222-224 | for years 1000-9999, `strftime('%Y-%m-%d %H:%M:%S')` yields nineteen characters (the model pads every year to four digits) |
| Timestamps.FormatLayout | main.py:224 | for years 1000-9999, the separators of the formatted timestamp sit at positions 4, 7, 10, 13 and 16 (the model always does so) |
| Timestamps.FormatOrder | main.py:228 | for valid four-digit-year timestamps, Python string `<`, `==` and `<=` on the formatted values coincide with datetime `<`, `==` and `<=`, so the string skip test means the same as a time comparison |
| Entries.SortByTime | main.py:152-153 | the sort of a brand's list returns a permutation of it (same length and multiset), sorted by timestamp |
| Entries.InsertSorted | main.py:153 | inserting an entry after every entry not later than it keeps a sorted list sorted |
| Entries.SortByTimeStable | main.py:153 | `list.sort` is stable: for every timestamp, the entries carrying it appear in input order |
| Grouper.Get | main.py:136 | computes `record.get(key, default)`: the stored value (possibly null) when the key is present, the default otherwise |
| Grouper.ParsedTime | main.py:136-141 | computes the record's parsed timestamp, or none when the field is missing or null or the parse fails (the `except ... continue` path) |
| Grouper.Admit | main.py:136-149 | a record is kept exactly when its timestamp is present, parses and is not before the cutoff (a record exactly at the cutoff is kept), and then carries that timestamp, the brand with default "Unknown Brand" and the content with default "" |
| Grouper.Retained | main.py:135-149 | the grouping loop keeps at most one message per record |
| Grouper.RetainedIsAdmitted | main.py:135-149 | every admitted record's message is kept, and every kept message comes from an admitted record |
| Grouper.SkippedRecordIsInvisible | main.py:136-144 | a record that is dropped (missing, null or unparsable timestamp, or before the cutoff) leaves the grouping of the others exactly as if it were absent |
| Grouper.BrandOrder | main.py:146-148 | the dict's keys are distinct, and a brand is a key exactly when some kept message has it |
| Grouper.EntriesOf | main.py:149 | a brand's list is empty exactly when no kept message has that brand |
| Grouper.BucketMapHoldsEntriesOf | main.py:146-149 | the dict's keys are the brands of the kept messages, and each brand's list holds exactly its messages in input order |
| Grouper.BrandOrderFollowsFirstSighting | main.py:146-148 | keys are in first-appearance order: when the input first shows the `j`-th key, every earlier key has already appeared |
| Grouper.BucketByBrand | main.py:131-149 | the first loop builds exactly the key order and lists of the kept messages |
| Grouper.FileMessage | main.py:146-149 | filing one message opens its brand's list on first sight and appends to it, keeping the key order and lists in step with the messages seen so far |
| Grouper.SortBuckets | main.py:152-153 | the second loop leaves the keys unchanged and replaces every list with its stable sort |
| Grouper.SortNext | main.py:152-153 | one pass of the second loop sorts the next key's list, keeping the keys and leaving the lists of later keys untouched |
| Grouper.GroupsOf | main.py:146-153 | computes the dict built from a sequence of kept messages: keys in first-appearance order, each key's list its messages sorted by timestamp |
| Grouper.Grouping | main.py:126-155 | computes what `group_messages_by_brand` returns: `GroupsOf` of the messages the loop keeps |
| Grouper.GroupMessagesByBrand | main.py:126-155 | the method returns exactly `Grouping(records, cutoff, parse)` |
| Grouper.GroupedListsAreSortedAndStable | main.py:149-153 | every list is non-empty, sorted by timestamp, a permutation of its brand's kept messages, and in input order among equal timestamps |
| Grouper.GroupingIsWellFormed | main.py:146-153 | the keys are distinct, the dict's keys are exactly the key order, and no list is empty |
| Grouper.GroupingPartitions | main.py:146-149 | flattening the dict gives back every kept message exactly once, each under its own brand |
| Driver.Render | main.py:222 | computes `f"{content}"`: the content, or `None` for a null content |
| Driver.Line | main.py:222 | computes one transcript line, the formatted timestamp, `": "` and the rendered content |
| Driver.Conversation | main.py:222 | computes `"\n".join` of the lines of a brand's messages in list order |
| Driver.ConversationShape | main.py:222 | the transcript is empty exactly when there are no messages; otherwise it opens with the oldest message's line and timestamp |
| Driver.Latest | main.py:224 | the latest timestamp is a formatted time, nineteen characters long for years 1000-9999 |
| Driver.LatestIsMaximum | main.py:224 | for a time-sorted list, `messages[-1]`'s formatted timestamp is at least every message's formatted timestamp in string order |
| Driver.Lookup | main.py:227 | computes `last_processed.get(brand)`: the stored watermark, or none when the brand has no key |
| Driver.AlreadyProcessed | main.py:227-228 | computes the skip test: the brand has a stored watermark, it is non-empty, and `latest <= watermark` in Python string order |
| Driver.Field | main.py:251-255 | computes `analysis.get(key, "")`: the reply's value for the key, or `""` when it is missing |
| Driver.BuildRow | main.py:245-256 | the row has ten cells: latest timestamp, two blanks, the brand, "Chat", then the five reply fields |
| Driver.RowCarriesAnalysis | main.py:251-255 | cells 5-9 are problem, main_category, solution, magicos_issue and business_issue from the reply, each "" when missing |
| Driver.Attempt | main.py:224-256 | computes the outcome of a brand's turn: skipped, classifier failure or empty reply, undecodable reply, or the ten-cell row with whether the sheet accepted it |
| Driver.AttemptOutcome | main.py:224-256 | a turn is skipped iff the stored watermark is non-empty and `latest <= watermark`; a missing or empty watermark never skips; the turn classifies iff it is not skipped, the reply is non-empty and it decodes; a classified row starts with `latest` and holds the brand |
| Driver.Step | main.py:227-265 | computes the loop state after a brand's turn from its outcome: unchanged when skipped, the classifier call recorded otherwise, and on a classified turn the watermark set to `latest` and the row appended when accepted |
| Driver.TurnEffect | main.py:227-265 | one turn changes only its own brand's watermark, and only on a classified outcome, to `latest`, whether or not the sheet took the row; it calls the classifier unless skipped; it appends the row exactly when the sheet accepts it |
| Driver.StepSkipped | main.py:228-230 | a skipped turn leaves watermarks, rows and classifier calls unchanged |
| Driver.StepFailed | main.py:237-265 | a failed call, an empty reply (the `else` at the end) or an undecodable reply (the `continue`) records the classifier call and changes nothing else |
| Driver.StepClassified | main.py:245-261 | a classified turn sets the brand's watermark to `latest`, appends the row when the sheet accepts it, and records the call |
| Driver.ProcessBrand | main.py:222-265 | one iteration of the loop body produces exactly the state `Step` specifies |
| Driver.Advance | main.py:220-221 | the body applied to the `i`-th key moves the loop state from `Run(…, i)` to `Run(…, i + 1)` |
| Driver.ProcessConversations | main.py:220-265 | the loop over `grouped.items()` ends in exactly the state `Run` gives for all keys |
| Driver.HandleExport | main.py:208-265 | grouping followed by the loop: the groups are runnable with distinct keys, and the result is `Run` over `Grouping` from the loaded watermarks |
| Driver.GroupsAreRunnable | main.py:146-155 | every dict the grouping builds has a non-empty list per key and no repeated key |
| Driver.Run | main.py:220-265 | computes the loop state after the first `n` keys of the dict, applying `Step` to each key in order from the loaded watermarks |
| Driver.RunMarks | main.py:227-261 | after the loop, a brand's watermark is its latest timestamp if its turn classified it, and what it was before the run otherwise |
| Driver.WatermarksOnlyMoveForward | main.py:227-261 | a watermark changes iff its brand was classified; it then becomes the latest timestamp and is strictly greater in string order than any non-empty value it had; a skipped, failed or undecodable brand keeps its value |
| Driver.AskedTurn | main.py:228-237 | a brand's turn calls the classifier exactly when its skip test against the initial watermarks fails |
| Driver.SkippedBrandsAreNotAsked | main.py:220-237 | over a whole run, the classifier is called for a brand iff it is a key whose skip test fails: a brand whose watermark covers its latest message costs no call |
| Driver.RowsAreAcceptedRows | main.py:245-261 | after the run, every brand whose turn was classified and whose append went through has its row in the sheet's rows, and every row is its brand's row from such a turn |
| Driver.RowsMatchWatermarks | main.py:245-261 | the sheet gets at most one ten-cell row per brand of the grouping; each row's first cell is its brand's watermark after the run; the rows are exactly the rows of the classified turns whose append went through |
| Driver.RerunSkipsSettledBrands | main.py:227-261 | a brand whose turn was classified (even when the sheet rejected the row) or skipped is skipped on a rerun over the same messages |
| Driver.RerunIsIdempotent | main.py:220-265 | when no turn failed, a second run over the same messages changes no watermark, appends no row and calls no classifier, whatever the services answer |
| Driver.SkipMeansNothingNewer | main.py:224-230 | with a formatted watermark `t`, the string skip test on a sorted conversation holds exactly when no message is later than `t` |
| Driver.StaleConversationIsSkipped | main.py:227-230 | a 10:00 watermark skips a conversation whose last message is at 09:00 that day, with no classifier call |
| Driver.SingleBrandEndToEnd | main.py:220-261 | for one never-seen brand whose reply decodes and whose row is accepted, one run appends exactly that brand's row, calls the classifier once, and sets the watermark to its latest timestamp |

## Left out

- Looker (`looker_credentials`, `get_look_data`, main.py:106-124): a remote query. The model starts from the records it returns.
- The chat-model call and the prompt (`categorize_conversation`, main.py:31, 33-104, 157-178): a remote service. Its stripped reply is `Services.classify`, a function of the brand and its transcript, with `None` when the call raised. Each brand thus gets its own answer, so two brands with the same transcript may be answered differently or fail independently. Within one run a brand is asked at most once, so fixing the answer per brand and transcript loses nothing there. A rerun is given its own `Services`, which may answer differently.
- `update_google_sheet` (main.py:180-191): a remote append whose errors are swallowed. Only its success or failure (`Services.sheetAccepts`) is modelled.
- `json.loads` (main.py:240): modelled as `Services.decode`, which returns a map from field names to strings, or `None`. A decoded field whose value is not a string (`null`, a number, a nested object) goes into the row unchanged at main.py:251-255, a `null` as an empty cell. The model cannot produce such a cell: each of cells 5-9 is a string, or `""` for a missing key. A reply that decodes to something other than an object (a list, a number) would make `analysis.get` raise and end the run. The model does not capture that crash either.
- `load_last_processed` / `save_last_processed` (main.py:193-204): file I/O. The watermarks are a map passed in and returned. `json.dump` writes a `None` brand key as the string `"null"`, so on reload a null brand's watermark no longer matches it. The model does not capture that. Across a process restart `Driver.RerunIsIdempotent` therefore holds only for brands that are not null: the null brand's watermark comes back under the key `"null"`, so that brand is classified again and gets a second row. The model also does not capture that the file is rewritten after every classified brand, which matters only if the run is killed midway.
- `datetime.now()` and `timedelta(hours=24)` (main.py:132-133): the cutoff is a parameter, a `Timestamp` in whole seconds. `now - timedelta(hours=24)` carries microseconds, but the parsed timestamps carry none, so the source's comparison with a cutoff `c` behaves exactly like the model's with `c` rounded up to the next whole second. For example, with `c` at 10:00:00.3 the source drops a record at 10:00:00, and so does the model with cutoff 10:00:01.
- `datetime.strptime` (main.py:138): the parse function is a parameter, so an arbitrary text-to-timestamp function. A timestamp field that is present but not a string is not modelled, because record values are strings or null.
- Logging, the `print` debug line and `processed_any` (main.py:17-21, 229, 232-235, 242, 263-268): they affect only the log.
- Timestamps.Format: always pads the year to four digits. `strptime` accepts years 1-999 (such as `0999-01-01 00:00:00`), and `%Y` in `strftime` does not zero-pad those years on every platform. For such years the model's text, and its nineteen-character length, may differ from the source's.
- Timestamps.FormatOrder: holds only for years 1000-9999. `%Y` of an earlier year is not zero-padded on every platform, and `Format` always pads it to four digits.
- Driver.SkippedBrandsAreNotAsked: states which brands get a classifier call. That each is asked once and in key order follows from `Run`, but is not stated as a lemma.
- Watermarks are strings. A watermark file holding non-string values would make the skip comparison raise, and that case is not modelled.

=== FILE: driver.dfy ===
/**
 * The run loop of `main.py`: for every brand, in the grouping's key order,
 * skip it when its stored watermark already covers its latest message;
 * otherwise classify the conversation, append a row to the sheet and move
 * the brand's watermark to the latest timestamp.
 */
module Driver {
  import opened Wrappers
  import opened Strings
  import opened Timestamps
  import opened Entries
  import opened Grouper

  /** A decoded classifier reply: field name to value. */
  type Reply = map<string, string>

  /** `last_processed`: brand to the timestamp text of the last classified conversation. */
  type Watermarks = map<Brand, string>

  /** A sheet row; a `None` cell is a null (the brand of a row whose brand was null). */
  type Row = seq<Option<string>>

  /**
   * The answers of the remote services during one run: the stripped text
   * the chat model returns for a brand's conversation (`None` when the call
   * raised), `json.loads` of a reply (`None` on a decode error), and whether
   * appending the brand's row to the sheet went through (its failure is
   * only logged). A run makes at most one call and one append per brand, so
   * the brand names the call and the append: two brands with the same
   * transcript may get different answers.
   */
  datatype Services = Services(
    classify: (Brand, string) -> Option<string>,
    decode: string -> Option<Reply>,
    sheetAccepts: Brand -> bool)

  /** What one brand's turn of the loop comes to. */
  datatype Outcome =
    | UpToDate
    | ClassifyFailed
    | NotJson
    | Classified(row: Row, appended: bool)
  {
    predicate Failed() { ClassifyFailed? || NotJson? }
  }

  /**
   * The loop's state: the watermark map, the rows appended to the sheet and
   * the brands the classifier was asked about, in order.
   */
  datatype Progress = Progress(marks: Watermarks, rows: seq<Row>, asked: seq<Brand>)

  /** `f"{content}"`: a null content prints as `None`. */
  function Render(content: Option<string>): string
  {
    match content
    case None => "None"
    case Some(s) => s
  }

  /** One transcript line, `"<timestamp>: <content>"`. */
  function Line(e: Entry): string
  {
    Format(e.time) + ": " + Render(e.content)
  }

  /** `"\n".join(...)` of the lines of a brand's messages, oldest first. */
  function Conversation(es: seq<Entry>): string
  {
    if es == [] then ""
    else if |es| == 1 then Line(es[0])
    else Line(es[0]) + "\n" + Conversation(es[1..])
  }

  /**
   * The transcript is empty only without messages, and it opens with the
   * oldest message's timestamp and line.
   */
  lemma ConversationShape(es: seq<Entry>)
    ensures Conversation(es) == [] <==> es == []
    ensures es != [] ==> Line(es[0]) <= Conversation(es) && Format(es[0].time) <= Conversation(es)
  {
    if es != [] {
      var line := Line(es[0]);
      PrefixOfJoin(Format(es[0].time), ": ", Render(es[0].content));
      if |es| > 1 {
        PrefixOfJoin(line, "\n", Conversation(es[1..]));
        PrefixTransitive(Format(es[0].time), line, Conversation(es));
      }
    }
  }

  lemma PrefixOfJoin(a: string, sep: string, b: string)
    ensures a <= a + sep + b && |a + sep + b| >= |a|
  {
    assert (a + sep + b)[..|a|] == a;
  }

  lemma PrefixTransitive(a: string, b: string, c: string)
    requires a <= b && b <= c
    ensures a <= c
  {
    assert c[..|a|] == b[..|a|];
  }

  /** `messages[-1][0].strftime(...)`: the formatted timestamp of the brand's last message. */
  function Latest(es: seq<Entry>): (s: string)
    requires es != []
    ensures |s| == 19
  {
    Format(es[|es| - 1].time)
  }

  /** `last_processed.get(brand)`. */
  function Lookup(m: Watermarks, b: Brand): Option<string>
  {
    if b in m then Some(m[b]) else None
  }

  /** The skip test: a non-empty stored watermark that is not below `latest` (as strings). */
  predicate AlreadyProcessed(m: Watermarks, b: Brand, latest: string)
  {
    match Lookup(m, b)
    case None => false
    case Some(w) => w != "" && AtMost(latest, w)
  }

  /** `analysis.get(key, "")`. */
  function Field(reply: Reply, key: string): string
  {
    if key in reply then reply[key] else ""
  }

  /** The keys of the classifier's reply copied into the row, in column order. */
  const AnalysisKeys: seq<string> := ["problem", "main_category", "solution", "magicos_issue", "business_issue"]

  /** The ten-cell sheet row for a classified conversation. */
  function BuildRow(latest: string, brand: Brand, reply: Reply): (row: Row)
    ensures |row| == 10
    ensures row[0] == Some(latest) && row[3] == brand && row[4] == Some("Chat")
    ensures row[1] == row[2] == Some("")
  {
    [ Some(latest), Some(""), Some(""), brand, Some("Chat"),
      Some(Field(reply, "problem")),
      Some(Field(reply, "main_category")),
      Some(Field(reply, "solution")),
      Some(Field(reply, "magicos_issue")),
      Some(Field(reply, "business_issue")) ]
  }

  /**
   * The last five cells carry the reply's five analysis values in column
   * order, a key the reply lacks giving an empty cell.
   */
  lemma RowCarriesAnalysis(latest: string, brand: Brand, reply: Reply)
    ensures forall i :: 0 <= i < |AnalysisKeys| ==>
      BuildRow(latest, brand, reply)[5 + i] == Some(if AnalysisKeys[i] in reply then reply[AnalysisKeys[i]] else "")
  {
  }

  /** What the loop does for brand `b` whose sorted messages are `es`. */
  function Attempt(b: Brand, es: seq<Entry>, m: Watermarks, svc: Services): Outcome
    requires es != []
  {
    var latest := Latest(es);
    if AlreadyProcessed(m, b, latest) then UpToDate
    else match svc.classify(b, Conversation(es))
      case None => ClassifyFailed
      case Some(text) =>
        if text == "" then ClassifyFailed
        else match svc.decode(text)
          case None => NotJson
          case Some(reply) => Classified(BuildRow(latest, b, reply), svc.sheetAccepts(b))
  }

  /**
   * A brand's turn is skipped exactly when the skip test holds, never when
   * it has no watermark or an empty one; the classifier's text is used only
   * when it is non-empty and decodes; and a classified turn's row carries
   * the latest timestamp and the brand.
   */
  lemma AttemptOutcome(b: Brand, es: seq<Entry>, m: Watermarks, svc: Services)
    requires es != []
    ensures Attempt(b, es, m, svc) == UpToDate <==> AlreadyProcessed(m, b, Latest(es))
    ensures Lookup(m, b) == None || Lookup(m, b) == Some("") ==> Attempt(b, es, m, svc) != UpToDate
    ensures Attempt(b, es, m, svc).Classified? <==>
      && !AlreadyProcessed(m, b, Latest(es))
      && svc.classify(b, Conversation(es)).Some? && svc.classify(b, Conversation(es)).value != ""
      && svc.decode(svc.classify(b, Conversation(es)).value).Some?
    ensures Attempt(b, es, m, svc).Classified? ==>
      var o := Attempt(b, es, m, svc);
      |o.row| == 10 && o.row[0] == Some(Latest(es)) && o.row[3] == b && o.appended == svc.sheetAccepts(b)
  {
    var latest := Latest(es);
    if !AlreadyProcessed(m, b, latest) {
      var text := svc.classify(b, Conversation(es));
      if text.Some? && text.value != "" && svc.decode(text.value).Some? {
        var row := BuildRow(latest, b, svc.decode(text.value).value);
        assert Attempt(b, es, m, svc) == Classified(row, svc.sheetAccepts(b));
      }
    }
  }

  /** The loop state after brand `b`'s turn. */
  function Step(p: Progress, b: Brand, es: seq<Entry>, svc: Services): Progress
    requires es != []
  {
    match Attempt(b, es, p.marks, svc)
    case UpToDate => p
    case ClassifyFailed => p.(asked := p.asked + [b])
    case NotJson => p.(asked := p.asked + [b])
    case Classified(row, appended) =>
      Progress(p.marks[b := Latest(es)], if appended then p.rows + [row] else p.rows, p.asked + [b])
  }

  /**
   * One turn changes only brand `b`'s watermark, and that only when the
   * turn classified the conversation, to its latest timestamp (whether or
   * not the sheet took the row); it calls the classifier unless the brand is
   * skipped; it appends the row exactly when the sheet accepts it.
   */
  lemma TurnEffect(p: Progress, b: Brand, es: seq<Entry>, svc: Services)
    requires es != []
    ensures var q := Step(p, b, es, svc);
      && (forall k :: k != b ==> Lookup(q.marks, k) == Lookup(p.marks, k))
      && Lookup(q.marks, b) == (if Attempt(b, es, p.marks, svc).Classified? then Some(Latest(es)) else Lookup(p.marks, b))
      && q.asked == (if Attempt(b, es, p.marks, svc) == UpToDate then p.asked else p.asked + [b])
      && q.rows == (if Attempt(b, es, p.marks, svc).Classified? && Attempt(b, es, p.marks, svc).appended
                    then p.rows + [Attempt(b, es, p.marks, svc).row] else p.rows)
  {
  }

  /** Every brand in the key order has a non-empty list, as the grouping guarantees. */
  ghost predicate Runnable(g: Groups)
  {
    forall b :: b in g.order ==> b in g.buckets && g.buckets[b] != []
  }

  /** The loop state after the first `n` brands of `g`, starting from watermarks `m0`. */
  function Run(g: Groups, m0: Watermarks, svc: Services, n: nat): Progress
    requires Runnable(g) && n <= |g.order|
  {
    if n == 0 then Progress(m0, [], [])
    else Step(Run(g, m0, svc, n - 1), g.order[n - 1], g.buckets[g.order[n - 1]], svc)
  }

  /**
   * The `for brand, messages in grouped.items()` loop: threads the
   * watermark map and collects the rows the sheet accepted, and (as a ghost)
   * the brands the classifier was called for.
   */
  method ProcessConversations(g: Groups, lastProcessed: Watermarks, svc: Services)
    returns (marks: Watermarks, rows: seq<Row>, ghost asked: seq<Brand>)
    requires Runnable(g)
    ensures Progress(marks, rows, asked) == Run(g, lastProcessed, svc, |g.order|)
    ensures marks == Run(g, lastProcessed, svc, |g.order|).marks && rows == Run(g, lastProcessed, svc, |g.order|).rows
  {
    marks, rows, asked := lastProcessed, [], [];
    for i := 0 to |g.order|
      invariant Progress(marks, rows, asked) == Run(g, lastProcessed, svc, i)
    {
      marks, rows, asked := Advance(g, lastProcessed, svc, i, marks, rows, asked);
    }
  }

  /** The body of the loop, for the brand at position `i` of the key order. */
  method Advance(g: Groups, ghost m0: Watermarks, svc: Services, i: nat, marks: Watermarks, rows: seq<Row>, ghost asked: seq<Brand>)
    returns (marks': Watermarks, rows': seq<Row>, ghost asked': seq<Brand>)
    requires Runnable(g) && i < |g.order| && Progress(marks, rows, asked) == Run(g, m0, svc, i)
    ensures Progress(marks', rows', asked') == Run(g, m0, svc, i + 1)
  {
    var brand := g.order[i];
    RunNext(g, i);
    marks', rows', asked' := ProcessBrand(marks, rows, asked, brand, g.buckets[brand], svc);
  }

  lemma RunNext(g: Groups, i: nat)
    requires Runnable(g) && i < |g.order|
    ensures g.order[i] in g.buckets && g.buckets[g.order[i]] != []
  {
  }

  /** One turn of the loop: brand `brand` with its sorted `messages`. */
  method ProcessBrand(marks: Watermarks, rows: seq<Row>, ghost asked: seq<Brand>, brand: Brand, messages: seq<Entry>, svc: Services)
    returns (marks': Watermarks, rows': seq<Row>, ghost asked': seq<Brand>)
    requires messages != []
    ensures Progress(marks', rows', asked') == Step(Progress(marks, rows, asked), brand, messages, svc)
    ensures marks' == Step(Progress(marks, rows, asked), brand, messages, svc).marks
    ensures rows' == Step(Progress(marks, rows, asked), brand, messages, svc).rows
  {
    marks', rows', asked' := marks, rows, asked;
    var conversation := Conversation(messages);
    var latest := Latest(messages);
    if AlreadyProcessed(marks, brand, latest) {
      StepSkipped(Progress(marks, rows, asked), brand, messages, svc);
      return;
    }
    asked' := asked + [brand];
    var reply := svc.classify(brand, conversation);
    if reply.None? || reply.value == "" {
      assert Attempt(brand, messages, marks, svc) == ClassifyFailed;
      StepFailed(Progress(marks, rows, asked), brand, messages, svc);
      return;
    }
    var analysis := svc.decode(reply.value);
    if analysis.None? {
      assert Attempt(brand, messages, marks, svc) == NotJson;
      StepFailed(Progress(marks, rows, asked), brand, messages, svc);
      return;
    }
    var row := BuildRow(latest, brand, analysis.value);
    assert Attempt(brand, messages, marks, svc) == Classified(row, svc.sheetAccepts(brand));
    StepClassified(Progress(marks, rows, asked), brand, messages, svc, row);
    if svc.sheetAccepts(brand) {
      rows' := rows + [row];
    }
    marks' := marks[brand := latest];
  }

  lemma StepSkipped(p: Progress, b: Brand, es: seq<Entry>, svc: Services)
    requires es != [] && AlreadyProcessed(p.marks, b, Latest(es))
    ensures Step(p, b, es, svc) == p
  {
  }

  lemma StepFailed(p: Progress, b: Brand, es: seq<Entry>, svc: Services)
    requires es != [] && Attempt(b, es, p.marks, svc).Failed()
    ensures Step(p, b, es, svc) == p.(asked := p.asked + [b])
  {
  }

  lemma StepClassified(p: Progress, b: Brand, es: seq<Entry>, svc: Services, row: Row)
    requires es != [] && Attempt(b, es, p.marks, svc) == Classified(row, svc.sheetAccepts(b))
    ensures Step(p, b, es, svc)
         == Progress(p.marks[b := Latest(es)], if svc.sheetAccepts(b) then p.rows + [row] else p.rows, p.asked + [b])
  {
  }

  /** The dicts the grouping builds can be run, and their keys come up once each. */
  lemma GroupsAreRunnable(g: Groups)
    requires WellFormed(g)
    ensures Runnable(g) && Distinct(g.order)
  {
  }

  /** What the loop does for brand `b` of `g` when it starts from watermarks `m0`. */
  function OutcomeOf(g: Groups, m0: Watermarks, svc: Services, b: Brand): Outcome
    requires Runnable(g) && b in g.order
  {
    Attempt(b, g.buckets[b], m0, svc)
  }

  /** A brand's watermark once its turn has come. */
  function Settled(g: Groups, m0: Watermarks, svc: Services, b: Brand): Option<string>
    requires Runnable(g)
  {
    if b in g.order && OutcomeOf(g, m0, svc, b).Classified? then Some(Latest(g.buckets[b])) else Lookup(m0, b)
  }

  /** One turn of the marks invariant below, for a brand whose turn had not come. */
  lemma MarksTurn(g: Groups, m0: Watermarks, svc: Services, p: Progress, seen: seq<Brand>, b: Brand)
    requires Runnable(g) && b in g.order && b !in seen
    requires forall k :: Lookup(p.marks, k) == (if k in seen then Settled(g, m0, svc, k) else Lookup(m0, k))
    ensures forall k :: Lookup(Step(p, b, g.buckets[b], svc).marks, k) == (if k in seen + [b] then Settled(g, m0, svc, k) else Lookup(m0, k))
  {
    assert Lookup(p.marks, b) == Lookup(m0, b);
    assert Attempt(b, g.buckets[b], p.marks, svc) == OutcomeOf(g, m0, svc, b);
    TurnEffect(p, b, g.buckets[b], svc);
    MarksSettle(p.marks, Step(p, b, g.buckets[b], svc).marks, seen, b, k => Settled(g, m0, svc, k), m0);
  }

  lemma MarksSettle(before: Watermarks, after: Watermarks, seen: seq<Brand>, b: Brand, settled: Brand -> Option<string>, m0: Watermarks)
    requires forall k :: Lookup(before, k) == (if k in seen then settled(k) else Lookup(m0, k))
    requires forall k :: k != b ==> Lookup(after, k) == Lookup(before, k)
    requires Lookup(after, b) == settled(b)
    ensures forall k :: Lookup(after, k) == (if k in seen + [b] then settled(k) else Lookup(m0, k))
  {
  }

  /**
   * After the first `n` brands: a brand's watermark is its latest timestamp
   * when its turn classified it, and what it was before the run otherwise
   * (for brands whose turn has not come, or that are not in the grouping).
   * Each brand's turn sees the watermark it had before the run, because
   * every brand comes up once.
   */
  lemma {:induction false} RunMarksAfter(g: Groups, m0: Watermarks, svc: Services, n: nat)
    requires Runnable(g) && Distinct(g.order) && n <= |g.order|
    ensures forall b :: Lookup(Run(g, m0, svc, n).marks, b) == (if b in g.order[..n] then Settled(g, m0, svc, b) else Lookup(m0, b))
    decreases n, 1
  {
    if n > 0 {
      RunMarksStep(g, m0, svc, n);
    }
  }

  lemma {:induction false} RunMarksStep(g: Groups, m0: Watermarks, svc: Services, n: nat)
    requires Runnable(g) && Distinct(g.order) && 0 < n <= |g.order|
    ensures forall b :: Lookup(Run(g, m0, svc, n).marks, b) == (if b in g.order[..n] then Settled(g, m0, svc, b) else Lookup(m0, b))
    decreases n, 0
  {
    RunMarksAfter(g, m0, svc, n - 1);
    DistinctTurn(g.order, n);
    MarksTurn(g, m0, svc, Run(g, m0, svc, n - 1), g.order[..n - 1], g.order[n - 1]);
  }

  /** A brand's turn finds the watermark it had before the run. */
  lemma TurnSeesInitialMark(g: Groups, m0: Watermarks, svc: Services, n: nat)
    requires Runnable(g) && Distinct(g.order) && 0 < n <= |g.order|
    ensures Lookup(Run(g, m0, svc, n - 1).marks, g.order[n - 1]) == Lookup(m0, g.order[n - 1])
  {
    RunMarksAfter(g, m0, svc, n - 1);
    DistinctTurn(g.order, n);
  }

  /** The watermark map after the whole loop, brand by brand. */
  lemma RunMarks(g: Groups, m0: Watermarks, svc: Services)
    requires Runnable(g) && Distinct(g.order)
    ensures forall b :: Lookup(Run(g, m0, svc, |g.order|).marks, b) == Settled(g, m0, svc, b)
  {
    RunMarksAfter(g, m0, svc, |g.order|);
    assert g.order[..|g.order|] == g.order;
  }

  /**
   * A brand's watermark changes exactly when its conversation was
   * classified, and then it becomes the brand's latest timestamp, strictly
   * above (in string order) any non-empty value it held before. A skipped,
   * failed or undecodable brand keeps its old value, whether or not the
   * sheet took the row, and so does every brand without messages.
   */
  lemma WatermarksOnlyMoveForward(g: Groups, m0: Watermarks, svc: Services, b: Brand)
    requires Runnable(g) && Distinct(g.order)
    ensures var m1 := Run(g, m0, svc, |g.order|).marks;
      && (Lookup(m1, b) != Lookup(m0, b) <==> b in g.order && OutcomeOf(g, m0, svc, b).Classified?)
      && (Lookup(m1, b) != Lookup(m0, b) ==> Lookup(m1, b) == Some(Latest(g.buckets[b])))
      && (Lookup(m0, b).Some? && Lookup(m0, b).value != "" && Lookup(m1, b) != Lookup(m0, b) ==>
            Less(Lookup(m0, b).value, Lookup(m1, b).value))
  {
    RunMarks(g, m0, svc);
    SettledMovesForward(g, m0, svc, Run(g, m0, svc, |g.order|).marks, b);
  }

  lemma SettledMovesForward(g: Groups, m0: Watermarks, svc: Services, m1: Watermarks, b: Brand)
    requires Runnable(g) && Lookup(m1, b) == Settled(g, m0, svc, b)
    ensures && (Lookup(m1, b) != Lookup(m0, b) <==> b in g.order && OutcomeOf(g, m0, svc, b).Classified?)
            && (Lookup(m1, b) != Lookup(m0, b) ==> Lookup(m1, b) == Some(Latest(g.buckets[b])))
            && (Lookup(m0, b).Some? && Lookup(m0, b).value != "" && Lookup(m1, b) != Lookup(m0, b) ==>
                  Less(Lookup(m0, b).value, Lookup(m1, b).value))
  {
    if b in g.order && OutcomeOf(g, m0, svc, b).Classified? {
      var latest := Latest(g.buckets[b]);
      if Lookup(m0, b).Some? && Lookup(m0, b).value != "" {
        LessTotal(latest, Lookup(m0, b).value);
      }
    }
  }


  /** Brand `k` has messages and fails the skip test against `m0`: its turn asks the classifier. */
  ghost predicate Unskipped(g: Groups, m0: Watermarks, k: Brand)
  {
    k in g.buckets && g.buckets[k] != [] && !AlreadyProcessed(m0, k, Latest(g.buckets[k]))
  }

  /** A brand's turn asks the classifier exactly when its skip test fails. */
  lemma AskedTurn(g: Groups, m0: Watermarks, svc: Services, p: Progress, b: Brand)
    requires Runnable(g) && b in g.order && Lookup(p.marks, b) == Lookup(m0, b)
    ensures Step(p, b, g.buckets[b], svc).asked == p.asked + (if Unskipped(g, m0, b) then [b] else [])
  {
    AttemptOutcome(b, g.buckets[b], p.marks, svc);
    TurnEffect(p, b, g.buckets[b], svc);
  }

  /** `asked` holds exactly the brands of `seen` that fail the skip test. */
  ghost predicate AskedExactly(g: Groups, m0: Watermarks, asked: seq<Brand>, seen: seq<Brand>)
  {
    forall k :: k in asked <==> k in seen && Unskipped(g, m0, k)
  }

  /** One turn of the classifier-call invariant below, for a brand whose turn had not come. */
  lemma AskedGrows(g: Groups, m0: Watermarks, svc: Services, p: Progress, order: seq<Brand>, n: nat)
    requires Runnable(g) && 0 < n <= |order| && order[n - 1] in g.order
    requires Lookup(p.marks, order[n - 1]) == Lookup(m0, order[n - 1])
    requires AskedExactly(g, m0, p.asked, order[..n - 1])
    ensures AskedExactly(g, m0, Step(p, order[n - 1], g.buckets[order[n - 1]], svc).asked, order[..n])
  {
    AskedTurn(g, m0, svc, p, order[n - 1]);
    AskedSettle(p.asked, Step(p, order[n - 1], g.buckets[order[n - 1]], svc).asked, order, n, k => Unskipped(g, m0, k));
  }

  lemma {:induction false} AskedAfter(g: Groups, m0: Watermarks, svc: Services, n: nat)
    requires Runnable(g) && Distinct(g.order) && n <= |g.order|
    ensures AskedExactly(g, m0, Run(g, m0, svc, n).asked, g.order[..n])
    decreases n, 1
  {
    if n > 0 {
      AskedStep(g, m0, svc, n);
    }
  }

  lemma {:induction false} AskedStep(g: Groups, m0: Watermarks, svc: Services, n: nat)
    requires Runnable(g) && Distinct(g.order) && 0 < n <= |g.order|
    ensures AskedExactly(g, m0, Run(g, m0, svc, n).asked, g.order[..n])
    decreases n, 0
  {
    AskedAfter(g, m0, svc, n - 1);
    TurnSeesInitialMark(g, m0, svc, n);
    AskedGrows(g, m0, svc, Run(g, m0, svc, n - 1), g.order, n);
  }

  lemma AskedSettle(before: seq<Brand>, after: seq<Brand>, order: seq<Brand>, n: nat, asks: Brand -> bool)
    requires 0 < n <= |order|
    requires forall k :: k in before <==> k in order[..n - 1] && asks(k)
    requires after == before + (if asks(order[n - 1]) then [order[n - 1]] else [])
    ensures forall k :: k in after <==> k in order[..n] && asks(k)
  {
    assert order[..n] == order[..n - 1] + [order[n - 1]];
  }

  /**
   * The classifier is asked about exactly the brands whose skip test fails:
   * a brand whose watermark covers its latest message costs no call.
   */
  lemma SkippedBrandsAreNotAsked(g: Groups, m0: Watermarks, svc: Services)
    requires Runnable(g) && Distinct(g.order)
    ensures forall b :: b in Run(g, m0, svc, |g.order|).asked <==> b in g.order && !AlreadyProcessed(m0, b, Latest(g.buckets[b]))
  {
    AskedAfter(g, m0, svc, |g.order|);
    assert g.order[..|g.order|] == g.order;
  }

  ghost predicate RowsAgree(p: Progress, seen: seq<Brand>)
  {
    && (forall i :: 0 <= i < |p.rows| ==> |p.rows[i]| == 10 && p.rows[i][3] in seen)
    && (forall i :: 0 <= i < |p.rows| ==> Lookup(p.marks, p.rows[i][3]) == p.rows[i][0])
    && (forall i, j :: 0 <= i < j < |p.rows| ==> p.rows[i][3] != p.rows[j][3])
  }

  lemma RowsTurn(p: Progress, seen: seq<Brand>, b: Brand, es: seq<Entry>, svc: Services)
    requires es != [] && b !in seen && RowsAgree(p, seen)
    ensures RowsAgree(Step(p, b, es, svc), seen + [b])
  {
    var q := Step(p, b, es, svc);
    var o := Attempt(b, es, p.marks, svc);
    TurnEffect(p, b, es, svc);
    AttemptOutcome(b, es, p.marks, svc);
    if o.Classified? && o.appended {
      RowsGrow(p, q, seen, b, o.row);
    } else {
      RowsStay(p, q, seen, b);
    }
  }

  /** A turn that appends no row keeps the rows in step with the watermarks. */
  lemma RowsStay(p: Progress, q: Progress, seen: seq<Brand>, b: Brand)
    requires b !in seen && RowsAgree(p, seen) && q.rows == p.rows
    requires forall k :: k != b ==> Lookup(q.marks, k) == Lookup(p.marks, k)
    ensures RowsAgree(q, seen + [b])
  {
  }

  /** A turn that appends brand `b`'s row, and records its first cell as `b`'s watermark. */
  lemma RowsGrow(p: Progress, q: Progress, seen: seq<Brand>, b: Brand, row: Row)
    requires b !in seen && RowsAgree(p, seen) && q.rows == p.rows + [row]
    requires |row| == 10 && row[3] == b && Lookup(q.marks, b) == row[0]
    requires forall k :: k != b ==> Lookup(q.marks, k) == Lookup(p.marks, k)
    ensures RowsAgree(q, seen + [b])
  {
    forall i | 0 <= i < |q.rows|
      ensures |q.rows[i]| == 10 && q.rows[i][3] in seen + [b]
      ensures Lookup(q.marks, q.rows[i][3]) == q.rows[i][0]
    {
      if i < |p.rows| {
        assert q.rows[i] == p.rows[i];
      }
    }
  }

  lemma {:induction false} RowsAfter(g: Groups, m0: Watermarks, svc: Services, n: nat)
    requires Runnable(g) && Distinct(g.order) && n <= |g.order|
    ensures RowsAgree(Run(g, m0, svc, n), g.order[..n])
    decreases n, 1
  {
    if n > 0 {
      RowsStep(g, m0, svc, n);
    }
  }

  lemma {:induction false} RowsStep(g: Groups, m0: Watermarks, svc: Services, n: nat)
    requires Runnable(g) && Distinct(g.order) && 0 < n <= |g.order|
    ensures RowsAgree(Run(g, m0, svc, n), g.order[..n])
    decreases n, 0
  {
    RowsAfter(g, m0, svc, n - 1);
    DistinctTurn(g.order, n);
    RowsTurn(Run(g, m0, svc, n - 1), g.order[..n - 1], g.order[n - 1], g.buckets[g.order[n - 1]], svc);
  }

  /** Each key's outcome against the watermarks the run started from. */
  ghost function Outcomes(g: Groups, m0: Watermarks, svc: Services): map<Brand, Outcome>
    requires Runnable(g)
  {
    map b | b in g.order :: OutcomeOf(g, m0, svc, b)
  }

  /**
   * Every row is the row of a classified turn of `seen` whose append went
   * through, and every such turn has its row among `rows`.
   */
  ghost predicate RowsFrom(rows: seq<Row>, seen: seq<Brand>, outs: map<Brand, Outcome>)
  {
    && (forall i :: 0 <= i < |rows| ==>
          |rows[i]| == 10 && rows[i][3] in seen && rows[i][3] in outs && outs[rows[i][3]] == Classified(rows[i], true))
    && (forall b :: b in seen && b in outs && outs[b].Classified? && outs[b].appended ==> outs[b].row in rows)
  }

  lemma RowsFromStay(rows: seq<Row>, seen: seq<Brand>, b: Brand, outs: map<Brand, Outcome>)
    requires RowsFrom(rows, seen, outs)
    requires b in outs ==> !(outs[b].Classified? && outs[b].appended)
    ensures RowsFrom(rows, seen + [b], outs)
  {
  }

  lemma RowsFromGrow(rows: seq<Row>, seen: seq<Brand>, b: Brand, outs: map<Brand, Outcome>, row: Row)
    requires RowsFrom(rows, seen, outs)
    requires b in outs && outs[b] == Classified(row, true) && |row| == 10 && row[3] == b
    ensures RowsFrom(rows + [row], seen + [b], outs)
  {
    forall i | 0 <= i < |rows|
      ensures (rows + [row])[i] == rows[i]
    {
    }
  }

  /** One turn of the rows invariant below, for a brand whose turn had not come. */
  lemma RowsFromTurn(g: Groups, m0: Watermarks, svc: Services, p: Progress, seen: seq<Brand>, b: Brand)
    requires Runnable(g) && b in g.order && Lookup(p.marks, b) == Lookup(m0, b)
    requires RowsFrom(p.rows, seen, Outcomes(g, m0, svc))
    ensures RowsFrom(Step(p, b, g.buckets[b], svc).rows, seen + [b], Outcomes(g, m0, svc))
  {
    var o := OutcomeOf(g, m0, svc, b);
    assert Attempt(b, g.buckets[b], p.marks, svc) == o;
    TurnEffect(p, b, g.buckets[b], svc);
    AttemptOutcome(b, g.buckets[b], m0, svc);
    var outs := Outcomes(g, m0, svc);
    assert outs[b] == o;
    if o.Classified? && o.appended {
      RowsFromGrow(p.rows, seen, b, outs, o.row);
    } else {
      RowsFromStay(p.rows, seen, b, outs);
    }
  }

  lemma {:induction false} RowsFromAfter(g: Groups, m0: Watermarks, svc: Services, n: nat)
    requires Runnable(g) && Distinct(g.order) && n <= |g.order|
    ensures RowsFrom(Run(g, m0, svc, n).rows, g.order[..n], Outcomes(g, m0, svc))
    decreases n, 1
  {
    if n > 0 {
      RowsFromStep(g, m0, svc, n);
    }
  }

  lemma {:induction false} RowsFromStep(g: Groups, m0: Watermarks, svc: Services, n: nat)
    requires Runnable(g) && Distinct(g.order) && 0 < n <= |g.order|
    ensures RowsFrom(Run(g, m0, svc, n).rows, g.order[..n], Outcomes(g, m0, svc))
    decreases n, 0
  {
    RowsFromAfter(g, m0, svc, n - 1);
    TurnSeesInitialMark(g, m0, svc, n);
    DistinctTurn(g.order, n);
    RowsFromTurn(g, m0, svc, Run(g, m0, svc, n - 1), g.order[..n - 1], g.order[n - 1]);
  }

  /**
   * The rows the sheet gets are exactly the rows of the classified turns
   * whose append went through: each such brand's row is there, and every
   * row is its brand's classified row.
   */
  lemma RowsAreAcceptedRows(g: Groups, m0: Watermarks, svc: Services)
    requires Runnable(g) && Distinct(g.order)
    ensures var rows := Run(g, m0, svc, |g.order|).rows;
      && (forall b :: b in g.order && OutcomeOf(g, m0, svc, b).Classified? && OutcomeOf(g, m0, svc, b).appended ==>
            OutcomeOf(g, m0, svc, b).row in rows)
      && (forall i :: 0 <= i < |rows| ==>
            |rows[i]| == 10 && rows[i][3] in g.order && OutcomeOf(g, m0, svc, rows[i][3]) == Classified(rows[i], true))
  {
    RowsFromAfter(g, m0, svc, |g.order|);
    assert g.order[..|g.order|] == g.order;
  }

  /**
   * The sheet gets at most one row per brand, ten cells wide; the first
   * cell of each is exactly the watermark its brand holds after the run;
   * each row is its brand's row from a classified turn whose append went
   * through, and every such turn's row is there.
   */
  lemma RowsMatchWatermarks(g: Groups, m0: Watermarks, svc: Services)
    requires Runnable(g) && Distinct(g.order)
    ensures var p := Run(g, m0, svc, |g.order|);
      && (forall i :: 0 <= i < |p.rows| ==> |p.rows[i]| == 10 && p.rows[i][3] in g.order)
      && (forall i :: 0 <= i < |p.rows| ==> Lookup(p.marks, p.rows[i][3]) == p.rows[i][0])
      && (forall i, j :: 0 <= i < j < |p.rows| ==> p.rows[i][3] != p.rows[j][3])
      && (forall b :: b in g.order && OutcomeOf(g, m0, svc, b).Classified? && OutcomeOf(g, m0, svc, b).appended ==>
            OutcomeOf(g, m0, svc, b).row in p.rows)
      && (forall i :: 0 <= i < |p.rows| ==> OutcomeOf(g, m0, svc, p.rows[i][3]) == Classified(p.rows[i], true))
  {
    RowsAfter(g, m0, svc, |g.order|);
    assert g.order[..|g.order|] == g.order;
    RowsAreAcceptedRows(g, m0, svc);
  }

  /**
   * Run again over the same messages, a brand that was classified or
   * skipped is now skipped, whatever the services answer.
   */
  lemma RerunSkipsSettledBrands(g: Groups, m0: Watermarks, svc: Services, b: Brand)
    requires Runnable(g) && Distinct(g.order) && b in g.order
    requires !OutcomeOf(g, m0, svc, b).Failed()
    ensures AlreadyProcessed(Run(g, m0, svc, |g.order|).marks, b, Latest(g.buckets[b]))
  {
    RunMarks(g, m0, svc);
    SettledPassesSkipTest(g, m0, svc, Run(g, m0, svc, |g.order|).marks, b);
  }

  lemma SettledPassesSkipTest(g: Groups, m0: Watermarks, svc: Services, m1: Watermarks, b: Brand)
    requires Runnable(g) && b in g.order && !OutcomeOf(g, m0, svc, b).Failed()
    requires Lookup(m1, b) == Settled(g, m0, svc, b)
    ensures AlreadyProcessed(m1, b, Latest(g.buckets[b]))
  {
    AttemptOutcome(b, g.buckets[b], m0, svc);
  }

  /** Every brand of `g` passes the skip test against `m`. */
  ghost predicate AllUpToDate(g: Groups, m: Watermarks)
    requires Runnable(g)
  {
    forall b :: b in g.order ==> AlreadyProcessed(m, b, Latest(g.buckets[b]))
  }

  lemma {:induction false} AllSkipped(g: Groups, m: Watermarks, svc: Services, n: nat)
    requires Runnable(g) && AllUpToDate(g, m) && n <= |g.order|
    ensures Run(g, m, svc, n) == Progress(m, [], [])
    decreases n, 1
  {
    if n > 0 {
      AllSkippedStep(g, m, svc, n);
    }
  }

  lemma {:induction false} AllSkippedStep(g: Groups, m: Watermarks, svc: Services, n: nat)
    requires Runnable(g) && AllUpToDate(g, m) && 0 < n <= |g.order|
    ensures Run(g, m, svc, n) == Progress(m, [], [])
    decreases n, 0
  {
    AllSkipped(g, m, svc, n - 1);
    SkipTurn(g, m, svc, n);
  }

  lemma SkipTurn(g: Groups, m: Watermarks, svc: Services, n: nat)
    requires Runnable(g) && 0 < n <= |g.order| && Run(g, m, svc, n - 1) == Progress(m, [], [])
    requires AlreadyProcessed(m, g.order[n - 1], Latest(g.buckets[g.order[n - 1]]))
    ensures Run(g, m, svc, n) == Progress(m, [], [])
  {
  }

  /**
   * When no brand's classification failed, running again over the same
   * messages changes no watermark, appends no row and calls no classifier.
   */
  lemma RerunIsIdempotent(g: Groups, m0: Watermarks, svc1: Services, svc2: Services)
    requires Runnable(g) && Distinct(g.order)
    requires forall b :: b in g.order ==> !OutcomeOf(g, m0, svc1, b).Failed()
    ensures var m1 := Run(g, m0, svc1, |g.order|).marks;
      Run(g, m1, svc2, |g.order|) == Progress(m1, [], [])
  {
    var m1 := Run(g, m0, svc1, |g.order|).marks;
    forall b | b in g.order
      ensures AlreadyProcessed(m1, b, Latest(g.buckets[b]))
    {
      RerunSkipsSettledBrands(g, m0, svc1, b);
    }
    AllSkipped(g, m1, svc2, |g.order|);
  }

  /** For a time-sorted conversation, `latest` is the greatest formatted timestamp in it. */
  lemma LatestIsMaximum(es: seq<Entry>)
    requires es != [] && Sorted(es)
    requires forall i :: 0 <= i < |es| ==> FourDigitYear(es[i].time)
    ensures forall i :: 0 <= i < |es| ==> AtMost(Format(es[i].time), Latest(es))
  {
    forall i | 0 <= i < |es|
      ensures AtMost(Format(es[i].time), Latest(es))
    {
      FormatOrder(es[i].time, es[|es| - 1].time);
    }
  }

  /**
   * When the stored watermark is the formatted time `t`, the string test
   * skips a sorted conversation exactly when none of its messages is later
   * than `t`.
   */
  lemma SkipMeansNothingNewer(m: Watermarks, b: Brand, es: seq<Entry>, t: Timestamp)
    requires es != [] && Sorted(es) && FourDigitYear(t) && Lookup(m, b) == Some(Format(t))
    requires forall i :: 0 <= i < |es| ==> FourDigitYear(es[i].time)
    ensures AlreadyProcessed(m, b, Latest(es)) <==> forall i :: 0 <= i < |es| ==> AtOrBefore(es[i].time, t)
  {
    var last := es[|es| - 1].time;
    FormatOrder(last, t);
    if AtOrBefore(last, t) {
      forall i | 0 <= i < |es|
        ensures AtOrBefore(es[i].time, t)
      {
        if i < |es| - 1 {
          AtOrBeforeTransitive(es[i].time, last, t);
        }
      }
    }
  }

  /**
   * A stored watermark of 10:00 on 2024-01-01 skips a brand whose latest
   * message is from 09:00 that day, without asking the classifier.
   */
  lemma StaleConversationIsSkipped(es: seq<Entry>, svc: Services)
    requires es != [] && es[|es| - 1].time == Timestamp(2024, 1, 1, 9, 0, 0)
    ensures var m := map[Some("Acme") := "2024-01-01 10:00:00"];
      Attempt(Some("Acme"), es, m, svc) == UpToDate && Step(Progress(m, [], []), Some("Acme"), es, svc) == Progress(m, [], [])
  {
    var ten := Timestamp(2024, 1, 1, 10, 0, 0);
    TenOClock();
    FormatOrder(es[|es| - 1].time, ten);
    var m := map[Some("Acme") := "2024-01-01 10:00:00"];
    assert AlreadyProcessed(m, Some("Acme"), Latest(es));
  }

  lemma TenOClock()
    ensures Format(Timestamp(2024, 1, 1, 10, 0, 0)) == "2024-01-01 10:00:00"
  {
  }

  /**
   * One brand, never processed, whose reply decodes and whose row the sheet
   * accepts: one row is appended and the brand's watermark becomes its
   * latest timestamp.
   */
  lemma SingleBrandEndToEnd(g: Groups, b: Brand, m0: Watermarks, svc: Services, text: string, reply: Reply)
    requires g.order == [b] && b in g.buckets && g.buckets[b] != [] && b !in m0
    requires svc.classify(b, Conversation(g.buckets[b])) == Some(text) && text != ""
    requires svc.decode(text) == Some(reply) && svc.sheetAccepts(b)
    ensures Runnable(g)
    ensures var latest := Latest(g.buckets[b]);
      Run(g, m0, svc, 1) == Progress(m0[b := latest], [BuildRow(latest, b, reply)], [b])
  {
    RunOneBrand(g, b, m0, svc);
    FreshBrandIsClassified(b, g.buckets[b], m0, svc, text, reply);
    FirstTurnClassified(m0, b, g.buckets[b], svc, BuildRow(Latest(g.buckets[b]), b, reply));
  }

  lemma RunOneBrand(g: Groups, b: Brand, m0: Watermarks, svc: Services)
    requires g.order == [b] && b in g.buckets && g.buckets[b] != []
    ensures Runnable(g)
    ensures Run(g, m0, svc, 1) == Step(Progress(m0, [], []), b, g.buckets[b], svc)
  {
    RunNext(g, 0);
  }

  lemma FirstTurnClassified(m0: Watermarks, b: Brand, es: seq<Entry>, svc: Services, row: Row)
    requires es != [] && Attempt(b, es, m0, svc) == Classified(row, true)
    ensures Step(Progress(m0, [], []), b, es, svc) == Progress(m0[b := Latest(es)], [row], [b])
  {
  }

  lemma FreshBrandIsClassified(b: Brand, es: seq<Entry>, m0: Watermarks, svc: Services, text: string, reply: Reply)
    requires es != [] && b !in m0
    requires svc.classify(b, Conversation(es)) == Some(text) && text != ""
    requires svc.decode(text) == Some(reply)
    ensures Attempt(b, es, m0, svc) == Classified(BuildRow(Latest(es), b, reply), svc.sheetAccepts(b))
  {
  }

  /**
   * The whole `__main__` block on one export: group the records, then run
   * the loop over the groups from the loaded watermarks.
   */
  method HandleExport(records: seq<Record>, cutoff: Timestamp, parse: string -> Option<Timestamp>,
                      lastProcessed: Watermarks, svc: Services)
    returns (marks: Watermarks, rows: seq<Row>, ghost asked: seq<Brand>)
    ensures var g := Grouping(records, cutoff, parse);
      && Runnable(g) && Distinct(g.order)
      && Progress(marks, rows, asked) == Run(g, lastProcessed, svc, |g.order|)
    ensures var g := Grouping(records, cutoff, parse);
      Runnable(g) && marks == Run(g, lastProcessed, svc, |g.order|).marks && rows == Run(g, lastProcessed, svc, |g.order|).rows
  {
    var grouped := GroupMessagesByBrand(records, cutoff, parse);
    GroupingIsWellFormed(Retained(records, cutoff, parse));
    GroupsAreRunnable(grouped);
    marks, rows, asked := ProcessConversations(grouped, lastProcessed, svc);
  }
}

=== FILE: entries.dfy ===
/**
 * One brand's messages as the grouping step stores them: `(timestamp,
 * content)` pairs, and `list.sort(key=lambda x: x[0])`, the stable sort on
 * the timestamp alone that orders each brand's list.
 */
module Entries {
  import opened Wrappers
  import opened Timestamps

  /** A `(timestamp, content)` tuple; a JSON-null content stays `None`. */
  datatype Entry = Entry(time: Timestamp, content: Option<string>)

  /** Non-decreasing by timestamp. */
  ghost predicate Sorted(s: seq<Entry>)
  {
    forall i, j :: 0 <= i < j < |s| ==> AtOrBefore(s[i].time, s[j].time)
  }

  /** The entries of `s` stamped exactly `t`, in their order in `s`. */
  function WithTime(s: seq<Entry>, t: Timestamp): (r: seq<Entry>)
    ensures |r| <= |s|
    ensures forall e :: e in r ==> e in s && e.time == t
  {
    if s == [] then []
    else WithTime(s[..|s| - 1], t) + (if s[|s| - 1].time == t then [s[|s| - 1]] else [])
  }

  /**
   * Puts `e` after every entry not later than it: the place a stable sort
   * gives an element that comes after all of `s` in the input.
   */
  function Insert(e: Entry, s: seq<Entry>): (r: seq<Entry>)
    ensures |r| == |s| + 1
    ensures multiset(r) == multiset(s) + multiset{e}
  {
    if s == [] then [e]
    else if Before(e.time, s[0].time) then [e] + s
    else
      assert s == [s[0]] + s[1..];
      [s[0]] + Insert(e, s[1..])
  }

  lemma {:induction false} InsertSorted(e: Entry, s: seq<Entry>)
    requires Sorted(s)
    ensures Sorted(Insert(e, s))
  {
    if s != [] && !Before(e.time, s[0].time) {
      var rest := Insert(e, s[1..]);
      InsertSorted(e, s[1..]);
      assert s == [s[0]] + s[1..];
      forall k | 0 <= k < |rest|
        ensures AtOrBefore(s[0].time, rest[k].time)
      {
        assert rest[k] in multiset(rest);
        if rest[k] != e {
          assert rest[k] in multiset(s[1..]);
          var j :| 0 <= j < |s[1..]| && s[1..][j] == rest[k];
          assert s[j + 1] == rest[k];
        }
      }
      assert Insert(e, s) == [s[0]] + rest;
    }
  }

  /** `sorted(s, key=lambda x: x[0])`, as a reference insertion sort. */
  function SortByTime(s: seq<Entry>): (r: seq<Entry>)
    ensures |r| == |s|
    ensures multiset(r) == multiset(s)
    ensures Sorted(r)
  {
    if s == [] then []
    else
      var init := SortByTime(s[..|s| - 1]);
      assert s == s[..|s| - 1] + [s[|s| - 1]];
      InsertSorted(s[|s| - 1], init);
      Insert(s[|s| - 1], init)
  }

  lemma {:induction false} WithTimeConcat(a: seq<Entry>, b: seq<Entry>, t: Timestamp)
    ensures WithTime(a + b, t) == WithTime(a, t) + WithTime(b, t)
  {
    if b != [] {
      var ab := a + b;
      assert ab[..|ab| - 1] == a + b[..|b| - 1];
      WithTimeConcat(a, b[..|b| - 1], t);
    } else {
      assert a + b == a;
    }
  }

  lemma {:induction false} WithTimeAbsent(s: seq<Entry>, t: Timestamp)
    requires forall i :: 0 <= i < |s| ==> s[i].time != t
    ensures WithTime(s, t) == []
  {
    if s != [] {
      WithTimeAbsent(s[..|s| - 1], t);
    }
  }

  /** An entry stamped `t` placed before a sorted list of later entries. */
  lemma InsertStableFront(e: Entry, s: seq<Entry>, t: Timestamp)
    requires Sorted(s) && s != [] && Before(e.time, s[0].time)
    ensures WithTime([e] + s, t) == WithTime(s, t) + (if e.time == t then [e] else [])
  {
    WithTimeConcat([e], s, t);
    assert WithTime([e], t) == (if e.time == t then [e] else []) by {
      assert [e][..0] == [];
    }
    if e.time == t {
      forall i | 0 <= i < |s|
        ensures s[i].time != t
      {
        if i > 0 {
          BeforeThenAtOrBefore(e.time, s[0].time, s[i].time);
        }
      }
      WithTimeAbsent(s, t);
    }
  }

  /** Inserting into a sorted list puts `e` after every entry with its timestamp. */
  lemma {:induction false} InsertStable(e: Entry, s: seq<Entry>, t: Timestamp)
    requires Sorted(s)
    ensures WithTime(Insert(e, s), t) == WithTime(s, t) + (if e.time == t then [e] else [])
    decreases |s|, 1
  {
    if s == [] {
      assert Insert(e, s) == [e];
      assert [e][..0] == [];
    } else if Before(e.time, s[0].time) {
      InsertStableFront(e, s, t);
    } else {
      InsertStableBehind(e, s, t);
    }
  }

  lemma {:induction false} InsertStableBehind(e: Entry, s: seq<Entry>, t: Timestamp)
    requires Sorted(s) && s != [] && !Before(e.time, s[0].time)
    ensures WithTime(Insert(e, s), t) == WithTime(s, t) + (if e.time == t then [e] else [])
    decreases |s|, 0
  {
    var rest := s[1..];
    assert s == [s[0]] + rest;
    InsertStable(e, rest, t);
    WithTimeConcat([s[0]], Insert(e, rest), t);
    WithTimeConcat([s[0]], rest, t);
  }

  /**
   * The sort is stable: the entries sharing any one timestamp keep their
   * input order.
   */
  lemma {:induction false} SortByTimeStable(s: seq<Entry>, t: Timestamp)
    ensures WithTime(SortByTime(s), t) == WithTime(s, t)
  {
    if s != [] {
      var init := s[..|s| - 1];
      SortByTimeStable(init, t);
      InsertStable(s[|s| - 1], SortByTime(init), t);
    }
  }
}

=== FILE: grouper.dfy ===
/**
 * `group_messages_by_brand`: keep the query rows whose timestamp parses and
 * is not earlier than the cutoff, bucket them by brand in an
 * insertion-ordered dict, then stable-sort every bucket by timestamp.
 */
module Grouper {
  import opened Wrappers
  import opened Timestamps
  import opened Entries

  /** One row of the query result: field name to JSON string, `None` for JSON null. */
  type Record = map<string, Option<string>>

  /** A grouping key: the brand name, or `None` when the row holds JSON null for it. */
  type Brand = Option<string>

  const TimeField := "brand_chats_core.message_created_at_time"
  const BrandField := "brands_core.name"
  const ContentField := "brand_chats_core.content"
  const UnknownBrand := "Unknown Brand"

  /** `record.get(key, default)`. */
  function Get(r: Record, key: string, default: Option<string>): Option<string>
  {
    if key in r then r[key] else default
  }

  /** A retained message: its brand key and the `(timestamp, content)` pair stored for it. */
  datatype Tagged = Tagged(brand: Brand, entry: Entry)

  /**
   * The insertion-ordered dict the grouping returns: `order` lists the keys
   * in insertion order, `buckets` maps each key to its list.
   */
  datatype Groups = Groups(order: seq<Brand>, buckets: map<Brand, seq<Entry>>)

  /**
   * The record's timestamp as `strptime` reads it: `None` when the field is
   * absent or null (`strptime(None, …)` raises) or the text does not parse.
   */
  function ParsedTime(r: Record, parse: string -> Option<Timestamp>): Option<Timestamp>
  {
    match Get(r, TimeField, None)
    case None => None
    case Some(text) => parse(text)
  }

  /** What one pass of the grouping loop keeps of a record, if anything. */
  function Admit(r: Record, cutoff: Timestamp, parse: string -> Option<Timestamp>): (x: Option<Tagged>)
    ensures x.Some? <==> ParsedTime(r, parse).Some? && AtOrBefore(cutoff, ParsedTime(r, parse).value)
    ensures ParsedTime(r, parse) == Some(cutoff) ==> x.Some?
    ensures x.Some? ==> x.value.entry.time == ParsedTime(r, parse).value
    ensures x.Some? ==> x.value.brand == Get(r, BrandField, Some(UnknownBrand))
    ensures x.Some? ==> x.value.entry.content == Get(r, ContentField, Some(""))
  {
    match ParsedTime(r, parse)
    case None => None
    case Some(t) =>
      if Before(t, cutoff) then None
      else Some(Tagged(Get(r, BrandField, Some(UnknownBrand)), Entry(t, Get(r, ContentField, Some("")))))
  }

  function Kept(x: Option<Tagged>): seq<Tagged>
  {
    match x
    case None => []
    case Some(v) => [v]
  }

  /** The messages the grouping keeps, in input order. */
  function Retained(records: seq<Record>, cutoff: Timestamp, parse: string -> Option<Timestamp>): (ts: seq<Tagged>)
    ensures |ts| <= |records|
  {
    if records == [] then []
    else Retained(records[..|records| - 1], cutoff, parse) + Kept(Admit(records[|records| - 1], cutoff, parse))
  }

  lemma RetainedStep(records: seq<Record>, i: nat, cutoff: Timestamp, parse: string -> Option<Timestamp>)
    requires i < |records|
    ensures Retained(records[..i + 1], cutoff, parse)
         == Retained(records[..i], cutoff, parse) + Kept(Admit(records[i], cutoff, parse))
  {
    assert records[..i + 1][..i] == records[..i];
  }

  lemma RetainedSnoc(records: seq<Record>, r: Record, cutoff: Timestamp, parse: string -> Option<Timestamp>)
    ensures Retained(records + [r], cutoff, parse) == Retained(records, cutoff, parse) + Kept(Admit(r, cutoff, parse))
  {
    assert (records + [r])[..|records|] == records;
  }

  /** No brand comes up twice: the key order of a dict. */
  predicate Distinct(s: seq<Brand>)
  {
    s == [] || (s[|s| - 1] !in s[..|s| - 1] && Distinct(s[..|s| - 1]))
  }

  /** Splitting a distinct sequence before its `n`-th element: that element is not among those before it. */
  lemma {:induction false} DistinctTurn(s: seq<Brand>, n: nat)
    requires Distinct(s) && 0 < n <= |s|
    ensures s[..n] == s[..n - 1] + [s[n - 1]]
    ensures s[n - 1] !in s[..n - 1]
  {
    if n < |s| {
      var init := s[..|s| - 1];
      DistinctTurn(init, n);
      assert init[..n] == s[..n] && init[..n - 1] == s[..n - 1];
    }
  }

  /** Some message of `ts` belongs to brand `b`. */
  predicate Mentions(ts: seq<Tagged>, b: Brand)
  {
    ts != [] && (ts[|ts| - 1].brand == b || Mentions(ts[..|ts| - 1], b))
  }

  /** The dict's keys in insertion order: each brand where it is first seen. */
  function BrandOrder(ts: seq<Tagged>): (order: seq<Brand>)
    ensures Distinct(order)
    ensures forall b :: b in order <==> Mentions(ts, b)
  {
    if ts == [] then []
    else
      var init := ts[..|ts| - 1];
      var last := ts[|ts| - 1];
      var order := BrandOrder(init);
      if last.brand in order then order else order + [last.brand]
  }

  /** The list one brand accumulates, in input order. */
  function EntriesOf(ts: seq<Tagged>, b: Brand): (es: seq<Entry>)
    ensures es == [] <==> !Mentions(ts, b)
  {
    if ts == [] then []
    else
      var init := ts[..|ts| - 1];
      var last := ts[|ts| - 1];
      EntriesOf(init, b) + (if last.brand == b then [last.entry] else [])
  }

  lemma BrandOrderSnoc(ts: seq<Tagged>, x: Tagged)
    ensures BrandOrder(ts + [x])
         == if x.brand in BrandOrder(ts) then BrandOrder(ts) else BrandOrder(ts) + [x.brand]
  {
    assert (ts + [x])[..|ts|] == ts;
  }

  lemma EntriesOfSnoc(ts: seq<Tagged>, x: Tagged, b: Brand)
    ensures EntriesOf(ts + [x], b) == EntriesOf(ts, b) + (if x.brand == b then [x.entry] else [])
  {
    assert (ts + [x])[..|ts|] == ts;
  }

  /** The dict's contents after appending every message of `ts` to its brand's list. */
  function BucketMap(ts: seq<Tagged>): map<Brand, seq<Entry>>
  {
    if ts == [] then map[]
    else
      var m := BucketMap(ts[..|ts| - 1]);
      var last := ts[|ts| - 1];
      m[last.brand := (if last.brand in m then m[last.brand] else []) + [last.entry]]
  }

  lemma BucketMapSnoc(ts: seq<Tagged>, x: Tagged)
    ensures var m := BucketMap(ts);
            BucketMap(ts + [x]) == m[x.brand := (if x.brand in m then m[x.brand] else []) + [x.entry]]
  {
    assert (ts + [x])[..|ts|] == ts;
  }

  lemma {:induction false} BucketKeysAreBrandOrder(ts: seq<Tagged>, b: Brand)
    ensures b in BucketMap(ts) <==> b in BrandOrder(ts)
  {
    BucketMapHoldsEntriesOf(ts);
  }

  lemma BucketKeysMatchOrder(ts: seq<Tagged>)
    ensures forall b :: b in BucketMap(ts) <==> b in BrandOrder(ts)
  {
    BucketMapHoldsEntriesOf(ts);
  }

  /** Each brand's list holds exactly that brand's messages, in input order. */
  lemma {:induction false} BucketMapHoldsEntriesOf(ts: seq<Tagged>)
    ensures forall b :: b in BucketMap(ts) <==> Mentions(ts, b)
    ensures forall b :: b in BucketMap(ts) ==> BucketMap(ts)[b] == EntriesOf(ts, b)
  {
    if ts != [] {
      BucketMapHoldsEntriesOf(ts[..|ts| - 1]);
    }
  }

  lemma SameMap(m1: map<Brand, seq<Entry>>, m2: map<Brand, seq<Entry>>)
    requires forall b :: b in m2 <==> b in m1
    requires forall b :: b in m2 ==> m1[b] == m2[b]
    ensures m1 == m2
  {
  }

  /** What a dict of non-empty lists looks like: distinct keys, one list per key. */
  ghost predicate WellFormed(g: Groups)
  {
    && Distinct(g.order)
    && (forall b :: b in g.buckets <==> b in g.order)
    && (forall b :: b in g.buckets ==> g.buckets[b] != [])
  }

  /** The dict built from the kept messages `ts`, every list sorted. */
  function GroupsOf(ts: seq<Tagged>): Groups
  {
    var order := BrandOrder(ts);
    Groups(order, map b | b in order :: SortByTime(EntriesOf(ts, b)))
  }

  /** What `group_messages_by_brand` returns for these records. */
  function Grouping(records: seq<Record>, cutoff: Timestamp, parse: string -> Option<Timestamp>): Groups
  {
    GroupsOf(Retained(records, cutoff, parse))
  }

  /**
   * The first loop of `group_messages_by_brand`: append each kept message to
   * its brand's list, creating the list when the brand is first seen.
   */
  method BucketByBrand(records: seq<Record>, cutoff: Timestamp, parse: string -> Option<Timestamp>)
    returns (order: seq<Brand>, buckets: map<Brand, seq<Entry>>)
    ensures order == BrandOrder(Retained(records, cutoff, parse))
    ensures buckets == BucketMap(Retained(records, cutoff, parse))
  {
    order, buckets := [], map[];
    for i := 0 to |records|
      invariant order == BrandOrder(Retained(records[..i], cutoff, parse))
      invariant buckets == BucketMap(Retained(records[..i], cutoff, parse))
    {
      ghost var seen := Retained(records[..i], cutoff, parse);
      RetainedStep(records, i, cutoff, parse);
      match Admit(records[i], cutoff, parse) {
        case None =>
          assert seen + [] == seen;
        case Some(x) =>
          order, buckets := FileMessage(order, buckets, seen, x);
      }
    }
    assert records[..|records|] == records;
  }

  /** Files one kept message under its brand, opening the brand's list on first sight. */
  method FileMessage(order: seq<Brand>, buckets: map<Brand, seq<Entry>>, ghost seen: seq<Tagged>, x: Tagged)
    returns (order': seq<Brand>, buckets': map<Brand, seq<Entry>>)
    requires order == BrandOrder(seen) && buckets == BucketMap(seen)
    ensures order' == BrandOrder(seen + [x]) && buckets' == BucketMap(seen + [x])
  {
    BrandOrderSnoc(seen, x);
    BucketMapSnoc(seen, x);
    BucketKeysAreBrandOrder(seen, x.brand);
    order', buckets' := order, buckets;
    if x.brand !in buckets' {
      order' := order' + [x.brand];
      buckets' := buckets'[x.brand := []];
    }
    buckets' := buckets'[x.brand := buckets'[x.brand] + [x.entry]];
  }

  /**
   * The second loop of `group_messages_by_brand`: sort every brand's list,
   * in key order, each with the stable sort on timestamps.
   */
  method SortBuckets(order: seq<Brand>, buckets: map<Brand, seq<Entry>>) returns (sorted: map<Brand, seq<Entry>>)
    requires Distinct(order)
    requires forall b :: b in buckets <==> b in order
    ensures forall b :: b in sorted <==> b in buckets
    ensures forall b :: b in buckets ==> sorted[b] == SortByTime(buckets[b])
  {
    sorted := buckets;
    for j := 0 to |order|
      invariant forall b :: b in sorted <==> b in order
      invariant SortedThrough(buckets, sorted, order[..j])
    {
      sorted := SortNext(order, buckets, sorted, j);
    }
    assert order[..|order|] == order;
  }

  /** The body of the second loop: sort the list of the `j`-th key. */
  method SortNext(order: seq<Brand>, buckets: map<Brand, seq<Entry>>, sorted: map<Brand, seq<Entry>>, j: nat)
    returns (sorted': map<Brand, seq<Entry>>)
    requires Distinct(order) && j < |order|
    requires forall b :: b in sorted <==> b in order
    requires SortedThrough(buckets, sorted, order[..j])
    ensures forall b :: b in sorted' <==> b in order
    ensures SortedThrough(buckets, sorted', order[..j + 1])
  {
    DistinctTurn(order, j + 1);
    SortOneMore(buckets, sorted, order[..j], order[j]);
    sorted' := sorted[order[j] := SortByTime(sorted[order[j]])];
  }

  /** The lists of the brands in `done` are sorted, the others still as filed. */
  ghost predicate SortedThrough(buckets: map<Brand, seq<Entry>>, sorted: map<Brand, seq<Entry>>, done: seq<Brand>)
  {
    forall b :: b in sorted ==> b in buckets && sorted[b] == if b in done then SortByTime(buckets[b]) else buckets[b]
  }

  lemma SortOneMore(buckets: map<Brand, seq<Entry>>, sorted: map<Brand, seq<Entry>>, done: seq<Brand>, b: Brand)
    requires SortedThrough(buckets, sorted, done) && b in sorted && b !in done
    ensures SortedThrough(buckets, sorted[b := SortByTime(sorted[b])], done + [b])
  {
  }

  /** `group_messages_by_brand(records)` with the given cutoff. */
  method GroupMessagesByBrand(records: seq<Record>, cutoff: Timestamp, parse: string -> Option<Timestamp>)
    returns (g: Groups)
    ensures g == Grouping(records, cutoff, parse)
  {
    var order, buckets := BucketByBrand(records, cutoff, parse);
    ghost var ts := Retained(records, cutoff, parse);
    BucketKeysMatchOrder(ts);
    buckets := SortBuckets(order, buckets);
    BucketMapHoldsEntriesOf(ts);
    ghost var want := map b | b in order :: SortByTime(EntriesOf(ts, b));
    assert forall b :: b in want <==> b in buckets;
    assert forall b :: b in want ==> buckets[b] == want[b];
    SameMap(buckets, want);
    g := Groups(order, buckets);
  }

  // Properties of the grouping

  lemma {:induction false} RetainedAppend(a: seq<Record>, b: seq<Record>, cutoff: Timestamp, parse: string -> Option<Timestamp>)
    ensures Retained(a + b, cutoff, parse) == Retained(a, cutoff, parse) + Retained(b, cutoff, parse)
    decreases |b|, 1
  {
    if b == [] {
      assert a + b == a;
    } else {
      RetainedAppendSnoc(a, b, cutoff, parse);
    }
  }

  lemma {:induction false} RetainedAppendSnoc(a: seq<Record>, b: seq<Record>, cutoff: Timestamp, parse: string -> Option<Timestamp>)
    requires b != []
    ensures Retained(a + b, cutoff, parse) == Retained(a, cutoff, parse) + Retained(b, cutoff, parse)
    decreases |b|, 0
  {
    var init, r := b[..|b| - 1], b[|b| - 1];
    var kept := Kept(Admit(r, cutoff, parse));
    calc {
      Retained(a + b, cutoff, parse);
    == { assert a + b == (a + init) + [r]; }
      Retained((a + init) + [r], cutoff, parse);
    == { RetainedSnoc(a + init, r, cutoff, parse); }
      Retained(a + init, cutoff, parse) + kept;
    == { RetainedAppend(a, init, cutoff, parse); }
      Retained(a, cutoff, parse) + Retained(init, cutoff, parse) + kept;
    == { RetainedSnoc(init, r, cutoff, parse); assert b == init + [r]; }
      Retained(a, cutoff, parse) + Retained(b, cutoff, parse);
    }
  }

  /**
   * A record the loop skips (timestamp missing, null, unparsable, or before
   * the cutoff) changes nothing: the records around it are grouped exactly as
   * if it were not there.
   */
  lemma SkippedRecordIsInvisible(a: seq<Record>, r: Record, b: seq<Record>, cutoff: Timestamp, parse: string -> Option<Timestamp>)
    requires Admit(r, cutoff, parse) == None
    ensures Grouping(a + [r] + b, cutoff, parse) == Grouping(a + b, cutoff, parse)
  {
    var ra, rb := Retained(a, cutoff, parse), Retained(b, cutoff, parse);
    assert Retained([r], cutoff, parse) == [] by {
      assert [r][..0] == [];
    }
    assert Retained(a + [r], cutoff, parse) == ra by {
      RetainedAppend(a, [r], cutoff, parse);
      assert ra + [] == ra;
    }
    assert Retained(a + [r] + b, cutoff, parse) == ra + rb by {
      RetainedAppend(a + [r], b, cutoff, parse);
    }
    assert Retained(a + b, cutoff, parse) == ra + rb by {
      RetainedAppend(a, b, cutoff, parse);
    }
  }

  /** A record's message is kept exactly when `Admit` keeps it. */
  lemma {:induction false} RetainedIsAdmitted(records: seq<Record>, cutoff: Timestamp, parse: string -> Option<Timestamp>)
    ensures forall i :: 0 <= i < |records| && Admit(records[i], cutoff, parse).Some? ==>
      Admit(records[i], cutoff, parse).value in Retained(records, cutoff, parse)
    ensures forall x :: x in Retained(records, cutoff, parse) ==>
      exists i :: 0 <= i < |records| && Admit(records[i], cutoff, parse) == Some(x)
  {
    if records != [] {
      var init := records[..|records| - 1];
      RetainedIsAdmitted(init, cutoff, parse);
      assert forall i :: 0 <= i < |init| ==> init[i] == records[i];
    }
  }

  lemma {:induction false} MentionsAt(ts: seq<Tagged>, k: nat)
    requires k < |ts|
    ensures Mentions(ts, ts[k].brand)
  {
    if k < |ts| - 1 {
      MentionsAt(ts[..|ts| - 1], k);
    }
  }

  /**
   * The keys come in the order of their first kept message: whenever the
   * `j`-th key shows up in the input, every earlier key has already shown up.
   */
  lemma {:induction false} BrandOrderFollowsFirstSighting(ts: seq<Tagged>, i: nat, j: nat, k: nat)
    requires i < j < |BrandOrder(ts)|
    requires k < |ts| && ts[k].brand == BrandOrder(ts)[j]
    ensures Mentions(ts[..k], BrandOrder(ts)[i])
  {
    var init, last := ts[..|ts| - 1], ts[|ts| - 1];
    assert ts == init + [last];
    BrandOrderSnoc(init, last);
    var p := BrandOrder(init);
    if k == |init| {
      assert ts[..k] == init;
      assert BrandOrder(ts)[i] == p[i];
    } else {
      assert init[k] == ts[k] && init[..k] == ts[..k];
      MentionsAt(init, k);
      assert j < |p| && BrandOrder(ts)[j] == p[j];
      assert BrandOrder(ts)[i] == p[i];
      BrandOrderFollowsFirstSighting(init, i, j, k);
    }
  }

  /**
   * Every key's list is non-empty, sorted by timestamp, holds exactly that
   * brand's kept messages, and keeps the input order among equal timestamps.
   */
  lemma GroupedListsAreSortedAndStable(ts: seq<Tagged>, b: Brand)
    requires b in GroupsOf(ts).buckets
    ensures var es := GroupsOf(ts).buckets[b];
      && es != []
      && Sorted(es)
      && multiset(es) == multiset(EntriesOf(ts, b))
      && forall t :: WithTime(es, t) == WithTime(EntriesOf(ts, b), t)
  {
    forall t {
      SortByTimeStable(EntriesOf(ts, b), t);
    }
  }

  /** The grouping never produces an empty list, and its keys are distinct. */
  lemma GroupingIsWellFormed(ts: seq<Tagged>)
    ensures WellFormed(GroupsOf(ts))
  {
  }

  /** The messages of one list, each paired again with its key. */
  function TagAll(b: Brand, es: seq<Entry>): (r: seq<Tagged>)
    ensures |r| == |es|
  {
    if es == [] then []
    else TagAll(b, es[..|es| - 1]) + [Tagged(b, es[|es| - 1])]
  }

  /** The dict's lists, in key order, flattened back into tagged messages. */
  function Flatten(order: seq<Brand>, buckets: map<Brand, seq<Entry>>): seq<Tagged>
    requires forall b :: b in order ==> b in buckets
  {
    if order == [] then []
    else Flatten(order[..|order| - 1], buckets) + TagAll(order[|order| - 1], buckets[order[|order| - 1]])
  }

  lemma {:induction false} TagAllCount(b: Brand, es: seq<Entry>, y: Tagged)
    ensures multiset(TagAll(b, es))[y] == if y.brand == b then multiset(es)[y.entry] else 0
  {
    if es != [] {
      TagAllCount(b, es[..|es| - 1], y);
      assert es == es[..|es| - 1] + [es[|es| - 1]];
    }
  }

  lemma TagAllPerm(b: Brand, es1: seq<Entry>, es2: seq<Entry>)
    requires multiset(es1) == multiset(es2)
    ensures multiset(TagAll(b, es1)) == multiset(TagAll(b, es2))
  {
    forall y
      ensures multiset(TagAll(b, es1))[y] == multiset(TagAll(b, es2))[y]
    {
      TagAllCount(b, es1, y);
      TagAllCount(b, es2, y);
    }
  }

  lemma {:induction false} FlattenPerm(order: seq<Brand>, m1: map<Brand, seq<Entry>>, m2: map<Brand, seq<Entry>>)
    requires forall b :: b in order ==> b in m1 && b in m2 && multiset(m1[b]) == multiset(m2[b])
    ensures multiset(Flatten(order, m1)) == multiset(Flatten(order, m2))
  {
    if order != [] {
      var b := order[|order| - 1];
      FlattenPerm(order[..|order| - 1], m1, m2);
      TagAllPerm(b, m1[b], m2[b]);
    }
  }

  lemma {:induction false} FlattenFrame(order: seq<Brand>, m1: map<Brand, seq<Entry>>, m2: map<Brand, seq<Entry>>)
    requires forall b :: b in order ==> b in m1 && b in m2 && m1[b] == m2[b]
    ensures Flatten(order, m1) == Flatten(order, m2)
  {
    if order != [] {
      FlattenFrame(order[..|order| - 1], m1, m2);
    }
  }

  /** Appending one message to one list adds exactly that message to the flattening. */
  lemma {:induction false} FlattenAppend(order: seq<Brand>, m: map<Brand, seq<Entry>>, b: Brand, e: Entry)
    requires Distinct(order)
    requires forall c :: c in order ==> c in m
    requires b in order
    ensures multiset(Flatten(order, m[b := m[b] + [e]])) == multiset(Flatten(order, m)) + multiset{Tagged(b, e)}
    decreases |order|, 1
  {
    if order[|order| - 1] == b {
      DistinctTurn(order, |order|);
      FlattenAppendLast(order, m, b, e);
    } else {
      FlattenAppendEarlier(order, m, b, e);
    }
  }

  lemma FlattenAppendLast(order: seq<Brand>, m: map<Brand, seq<Entry>>, b: Brand, e: Entry)
    requires order != [] && order[|order| - 1] == b && b !in order[..|order| - 1]
    requires forall c :: c in order ==> c in m
    ensures multiset(Flatten(order, m[b := m[b] + [e]])) == multiset(Flatten(order, m)) + multiset{Tagged(b, e)}
  {
    var m' := m[b := m[b] + [e]];
    FlattenFrame(order[..|order| - 1], m', m);
    assert TagAll(b, m'[b]) == TagAll(b, m[b]) + [Tagged(b, e)] by {
      assert (m[b] + [e])[..|m[b]|] == m[b];
    }
  }

  lemma {:induction false} FlattenAppendEarlier(order: seq<Brand>, m: map<Brand, seq<Entry>>, b: Brand, e: Entry)
    requires Distinct(order)
    requires forall c :: c in order ==> c in m
    requires b in order && order[|order| - 1] != b
    ensures multiset(Flatten(order, m[b := m[b] + [e]])) == multiset(Flatten(order, m)) + multiset{Tagged(b, e)}
    decreases |order|, 0
  {
    FlattenAppend(order[..|order| - 1], m, b, e);
  }

  /** A message of a brand not seen before opens a new list at the end. */
  lemma FlattenNewKey(order: seq<Brand>, m: map<Brand, seq<Entry>>, x: Tagged)
    requires forall c :: c in order ==> c in m
    requires x.brand !in order
    ensures forall c :: c in order + [x.brand] ==> c in m[x.brand := [x.entry]]
    ensures Flatten(order + [x.brand], m[x.brand := [x.entry]]) == Flatten(order, m) + [x]
  {
    var m' := m[x.brand := [x.entry]];
    FlattenFrame(order, m', m);
    assert (order + [x.brand])[..|order|] == order;
    assert TagAll(x.brand, [x.entry]) == [x] by {
      assert [x.entry][..0] == [];
    }
  }

  lemma {:induction false} BucketMapPartitions(ts: seq<Tagged>)
    ensures forall b :: b in BrandOrder(ts) ==> b in BucketMap(ts)
    ensures multiset(Flatten(BrandOrder(ts), BucketMap(ts))) == multiset(ts)
    decreases |ts|, 1
  {
    if ts != [] {
      PartitionsSnoc(ts);
    }
  }

  lemma {:induction false} PartitionsSnoc(ts: seq<Tagged>)
    requires ts != []
    ensures forall b :: b in BrandOrder(ts) ==> b in BucketMap(ts)
    ensures multiset(Flatten(BrandOrder(ts), BucketMap(ts))) == multiset(ts)
    decreases |ts|, 0
  {
    var init, x := ts[..|ts| - 1], ts[|ts| - 1];
    BucketMapPartitions(init);
    assert ts == init + [x];
    if x.brand in BrandOrder(init) {
      SnocKnownBrand(init, x);
    } else {
      SnocNewBrand(init, x);
    }
  }

  lemma SnocKnownBrand(init: seq<Tagged>, x: Tagged)
    requires x.brand in BrandOrder(init)
    requires forall b :: b in BrandOrder(init) ==> b in BucketMap(init)
    requires multiset(Flatten(BrandOrder(init), BucketMap(init))) == multiset(init)
    ensures forall b :: b in BrandOrder(init + [x]) ==> b in BucketMap(init + [x])
    ensures multiset(Flatten(BrandOrder(init + [x]), BucketMap(init + [x]))) == multiset(init + [x])
  {
    BucketKeysMatchOrder(init);
    BrandOrderSnoc(init, x);
    BucketMapSnoc(init, x);
    FlattenAppend(BrandOrder(init), BucketMap(init), x.brand, x.entry);
  }

  lemma SnocNewBrand(init: seq<Tagged>, x: Tagged)
    requires x.brand !in BrandOrder(init)
    requires forall b :: b in BrandOrder(init) ==> b in BucketMap(init)
    requires multiset(Flatten(BrandOrder(init), BucketMap(init))) == multiset(init)
    ensures forall b :: b in BrandOrder(init + [x]) ==> b in BucketMap(init + [x])
    ensures multiset(Flatten(BrandOrder(init + [x]), BucketMap(init + [x]))) == multiset(init + [x])
  {
    BucketKeysMatchOrder(init);
    BrandOrderSnoc(init, x);
    BucketMapSnoc(init, x);
    assert [] + [x.entry] == [x.entry];
    FlattenNewKey(BrandOrder(init), BucketMap(init), x);
  }

  /**
   * The grouping partitions the kept messages: flattening the dict back into
   * (brand, message) pairs gives them all, each exactly once.
   */
  lemma GroupingPartitions(ts: seq<Tagged>)
    ensures forall b :: b in GroupsOf(ts).order ==> b in GroupsOf(ts).buckets
    ensures multiset(Flatten(GroupsOf(ts).order, GroupsOf(ts).buckets)) == multiset(ts)
  {
    BucketMapPartitions(ts);
    BucketMapHoldsEntriesOf(ts);
    FlattenPerm(BrandOrder(ts), GroupsOf(ts).buckets, BucketMap(ts));
  }
}

=== FILE: strings.dfy ===
/**
 * Python's ordering of `str` values: lexicographic by code point, a proper
 * prefix sorting first. (Dafny's own `<` on sequences means "proper prefix",
 * so the comparison the source uses is spelled out here.)
 */
module Strings {

  /** Python's `a < b` on strings. */
  predicate Less(a: string, b: string)
  {
    if a == [] then b != []
    else if b == [] then false
    else if a[0] != b[0] then a[0] < b[0]
    else Less(a[1..], b[1..])
  }

  /** Python's `a <= b` on strings. */
  predicate AtMost(a: string, b: string)
  {
    a == b || Less(a, b)
  }

  /** Any two strings are ordered one way or the other. */
  lemma {:induction false} LessTotal(a: string, b: string)
    ensures Less(a, b) || a == b || Less(b, a)
  {
    if a != [] && b != [] && a[0] == b[0] {
      LessTotal(a[1..], b[1..]);
      if a[1..] == b[1..] {
        assert a == [a[0]] + a[1..] && b == [b[0]] + b[1..];
      }
    }
  }

  /** No string is below itself. */
  lemma {:induction false} LessIrreflexive(a: string)
    ensures !Less(a, a)
  {
    if a != [] {
      LessIrreflexive(a[1..]);
    }
  }

  /**
   * Comparing two strings that start with pieces of equal length: the first
   * pieces decide, and only when they are equal do the rests.
   */
  lemma {:induction false} LessConcat(x1: string, y1: string, x2: string, y2: string)
    requires |x1| == |x2|
    ensures Less(x1 + y1, x2 + y2) <==> Less(x1, x2) || (x1 == x2 && Less(y1, y2))
    ensures x1 + y1 == x2 + y2 <==> x1 == x2 && y1 == y2
  {
    if x1 == [] {
      assert x1 + y1 == y1 && x2 + y2 == y2;
    } else {
      var a, b := x1 + y1, x2 + y2;
      assert a[0] == x1[0] && b[0] == x2[0];
      assert a[1..] == x1[1..] + y1 && b[1..] == x2[1..] + y2;
      LessConcat(x1[1..], y1, x2[1..], y2);
      if x1[0] == x2[0] {
        assert x1 == x2 <==> x1[1..] == x2[1..] by {
          assert x1 == [x1[0]] + x1[1..] && x2 == [x2[0]] + x2[1..];
        }
        assert a == b <==> a[1..] == b[1..] by {
          assert a == [a[0]] + a[1..] && b == [b[0]] + b[1..];
        }
      } else {
        assert a != b && x1 != x2;
      }
    }
  }

  /**
   * Fields joined by the same separator character compare field by field.
   */
  lemma JoinedLess(x1: string, y1: string, x2: string, y2: string, sep: char)
    requires |x1| == |x2|
    ensures Less(x1 + [sep] + y1, x2 + [sep] + y2) <==> Less(x1, x2) || (x1 == x2 && Less(y1, y2))
    ensures x1 + [sep] + y1 == x2 + [sep] + y2 <==> x1 == x2 && y1 == y2
  {
    assert x1 + [sep] + y1 == x1 + ([sep] + y1);
    assert x2 + [sep] + y2 == x2 + ([sep] + y2);
    LessConcat(x1, [sep] + y1, x2, [sep] + y2);
    LessConcat([sep], y1, [sep], y2);
    assert !Less([sep], [sep]) by { LessIrreflexive([sep]); }
  }
}

=== FILE: timestamps.dfy ===
/**
 * Message timestamps: the calendar value `strptime` produces for the format
 * `%Y-%m-%d %H:%M:%S`, its chronological order (as Python compares
 * `datetime` values), and the zero-padded text `strftime` gives back for the
 * same format.
 */
module Timestamps {
  import opened Strings

  datatype Timestamp = Timestamp(year: int, month: int, day: int, hour: int, minute: int, second: int)

  predicate IsLeapYear(y: int)
  {
    y % 4 == 0 && (y % 100 != 0 || y % 400 == 0)
  }

  function DaysInMonth(y: int, m: int): (n: int)
    requires 1 <= m <= 12
    ensures 28 <= n <= 31
  {
    if m == 2 then (if IsLeapYear(y) then 29 else 28)
    else if m == 4 || m == 6 || m == 9 || m == 11 then 30
    else 31
  }

  /** The field ranges every Python `datetime` satisfies. */
  predicate Valid(t: Timestamp)
  {
    && 1 <= t.year <= 9999
    && 1 <= t.month <= 12
    && 1 <= t.day <= DaysInMonth(t.year, t.month)
    && 0 <= t.hour < 24
    && 0 <= t.minute < 60
    && 0 <= t.second < 60
  }

  /** A valid timestamp whose year `%Y` renders with exactly four digits. */
  predicate FourDigitYear(t: Timestamp)
  {
    Valid(t) && 1000 <= t.year
  }

  /** `a < b` on datetimes: field by field, most significant first. */
  predicate Before(a: Timestamp, b: Timestamp)
  {
    if a.year != b.year then a.year < b.year
    else if a.month != b.month then a.month < b.month
    else if a.day != b.day then a.day < b.day
    else if a.hour != b.hour then a.hour < b.hour
    else if a.minute != b.minute then a.minute < b.minute
    else a.second < b.second
  }

  /** `a <= b` on datetimes. */
  predicate AtOrBefore(a: Timestamp, b: Timestamp)
  {
    !Before(b, a)
  }

  function Digit(d: int): char
    requires 0 <= d < 10
  {
    ('0' as int + d) as char
  }

  /** The last two decimal digits of `n`, zero-padded (`%m`, `%d`, `%H`, `%M`, `%S`). */
  function Pad2(n: int): (s: string)
    ensures |s| == 2
  {
    [Digit((n / 10) % 10), Digit(n % 10)]
  }

  /** The last four decimal digits of `n`, zero-padded (`%Y`). */
  function Pad4(n: int): (s: string)
    ensures |s| == 4
  {
    Pad2(n / 100) + Pad2(n % 100)
  }

  function DatePart(t: Timestamp): (s: string)
    ensures |s| == 10
  {
    Pad4(t.year) + "-" + Pad2(t.month) + "-" + Pad2(t.day)
  }

  function ClockPart(t: Timestamp): (s: string)
    ensures |s| == 8
  {
    Pad2(t.hour) + ":" + Pad2(t.minute) + ":" + Pad2(t.second)
  }

  /** `t.strftime('%Y-%m-%d %H:%M:%S')` for years 1000-9999; the model pads every year to four digits, so its text is always nineteen characters. */
  function Format(t: Timestamp): (s: string)
    ensures |s| == 19
  {
    DatePart(t) + " " + ClockPart(t)
  }

  /** The separators sit at fixed places: `YYYY-MM-DD HH:MM:SS`. */
  lemma FormatLayout(t: Timestamp)
    ensures var s := Format(t);
      s[4] == '-' && s[7] == '-' && s[10] == ' ' && s[13] == ':' && s[16] == ':'
  {
  }

  lemma DigitOrder(x: int, y: int)
    requires 0 <= x < 10 && 0 <= y < 10
    ensures Digit(x) < Digit(y) <==> x < y
    ensures Digit(x) == Digit(y) <==> x == y
  {
    assert Digit(x) as int == '0' as int + x && Digit(y) as int == '0' as int + y;
  }

  lemma Pad2Order(m: int, n: int)
    requires 0 <= m < 100 && 0 <= n < 100
    ensures Less(Pad2(m), Pad2(n)) <==> m < n
    ensures Pad2(m) == Pad2(n) <==> m == n
  {
    var a, b := Pad2(m), Pad2(n);
    DigitOrder(m / 10, n / 10);
    DigitOrder(m % 10, n % 10);
    assert a[1..] == [a[1]] && b[1..] == [b[1]];
    assert [a[1]][1..] == [] && [b[1]][1..] == [];
    assert m == (m / 10) * 10 + m % 10 && n == (n / 10) * 10 + n % 10;
    if a[0] == b[0] {
      assert Less(a, b) == Less([a[1]], [b[1]]);
      assert Less([a[1]], [b[1]]) == (a[1] < b[1]);
    }
  }

  lemma Pad4Order(m: int, n: int)
    requires 0 <= m < 10000 && 0 <= n < 10000
    ensures Less(Pad4(m), Pad4(n)) <==> m < n
    ensures Pad4(m) == Pad4(n) <==> m == n
  {
    LessConcat(Pad2(m / 100), Pad2(m % 100), Pad2(n / 100), Pad2(n % 100));
    Pad2Order(m / 100, n / 100);
    Pad2Order(m % 100, n % 100);
    assert m == (m / 100) * 100 + m % 100 && n == (n / 100) * 100 + n % 100;
  }

  lemma DatePartOrder(a: Timestamp, b: Timestamp)
    requires Valid(a) && Valid(b)
    ensures Less(DatePart(a), DatePart(b)) <==>
      a.year < b.year || (a.year == b.year && (a.month < b.month || (a.month == b.month && a.day < b.day)))
    ensures DatePart(a) == DatePart(b) <==> a.year == b.year && a.month == b.month && a.day == b.day
  {
    Pad4Order(a.year, b.year);
    Pad2Order(a.month, b.month);
    Pad2Order(a.day, b.day);
    JoinedLess(Pad4(a.year), Pad2(a.month), Pad4(b.year), Pad2(b.month), '-');
    JoinedLess(Pad4(a.year) + "-" + Pad2(a.month), Pad2(a.day), Pad4(b.year) + "-" + Pad2(b.month), Pad2(b.day), '-');
  }

  lemma ClockPartOrder(a: Timestamp, b: Timestamp)
    requires Valid(a) && Valid(b)
    ensures Less(ClockPart(a), ClockPart(b)) <==>
      a.hour < b.hour || (a.hour == b.hour && (a.minute < b.minute || (a.minute == b.minute && a.second < b.second)))
    ensures ClockPart(a) == ClockPart(b) <==> a.hour == b.hour && a.minute == b.minute && a.second == b.second
  {
    Pad2Order(a.hour, b.hour);
    Pad2Order(a.minute, b.minute);
    Pad2Order(a.second, b.second);
    JoinedLess(Pad2(a.hour), Pad2(a.minute), Pad2(b.hour), Pad2(b.minute), ':');
    JoinedLess(Pad2(a.hour) + ":" + Pad2(a.minute), Pad2(a.second), Pad2(b.hour) + ":" + Pad2(b.minute), Pad2(b.second), ':');
  }

  /**
   * For four-digit years, comparing the formatted strings the way Python
   * compares `str` values gives the chronological order, and the formatting
   * loses nothing. This is what lets the run loop compare watermarks as text.
   */
  lemma FormatOrder(a: Timestamp, b: Timestamp)
    requires FourDigitYear(a) && FourDigitYear(b)
    ensures Less(Format(a), Format(b)) <==> Before(a, b)
    ensures Format(a) == Format(b) <==> a == b
    ensures AtMost(Format(a), Format(b)) <==> AtOrBefore(a, b)
  {
    DatePartOrder(a, b);
    ClockPartOrder(a, b);
    JoinedLess(DatePart(a), ClockPart(a), DatePart(b), ClockPart(b), ' ');
  }

  lemma BeforeThenAtOrBefore(a: Timestamp, b: Timestamp, c: Timestamp)
    requires Before(a, b) && AtOrBefore(b, c)
    ensures Before(a, c) && a != c
  {
  }

  lemma AtOrBeforeTransitive(a: Timestamp, b: Timestamp, c: Timestamp)
    requires AtOrBefore(a, b) && AtOrBefore(b, c)
    ensures AtOrBefore(a, c)
  {
  }
}

=== FILE: wrappers.dfy ===
/** The optional value used for Python's `None` throughout the model. */
module Wrappers {

  datatype Option<+T> = None | Some(value: T)
}
